=== FILE: README.md ===
# Course-management microservices: a Dafny model

This project models four small Express services that make up a
course-management back end:

- **the gateway** (`gateway.js`). It sits in front of everything. It checks a
  bearer token on protected routes and makes exactly one call to the service
  that owns the resource. It then reshapes that service's answer into its own
  success body or a `{error, message}` failure envelope.
- **the course service** (`courses.js`). It keeps a list of courses and an id
  counter. It supports create, list, enroll a student, list the enrolled
  students, and delete by the creator only.
- **the student service** (`students.js`). It keeps student profiles scoped to
  the account that created them. It supports create, list own, delete, full
  replace (PUT) and partial update (PATCH).
- **the identity service** (`auth.js`). It keeps accounts with unique names and
  hashed passwords, and login issues a signed token with the claims
  `{userId, name}`.

Each service is modelled as pure transitions on an immutable store:
`Step(reply, store)`. Every handler is one atomic transition. The things the
services cannot decide themselves are oracles passed in as function values:

- the token library (`Verifier`, `Signer`);
- bcrypt (`Hasher`, `Comparer`, either of which may throw);
- the gateway's HTTP client (`Backend`, from the call made to `Ok`,
  `HttpError` or `Transport`);
- the environment secret (`Option<string>`).

JavaScript semantics that change outcomes are written out explicitly:

- truthiness;
- `===`, which never equals two separately parsed arrays or objects;
- destructuring a JSON body, where the last duplicate key wins;
- `String(v)` and the `${v}` of a template literal, which throw for an object
  with its own `toString` member;
- `parseInt`, as in section 19.2.5 of ECMA-262: leading white space, sign,
  `0x`, the longest digit prefix, and NaN;
- the text a template literal splices in for a number or NaN, which is
  exponent notation from 10^21 on;
- reading `.length` of `null`, which throws.

Modules:

- `Wrappers`: `Option`, and `Thrown`, the result of a call that may throw.
- `JsNumber`: `parseInt`, and number-to-text.
- `JsValue`: JSON values, truthiness, `===`, field lookup, `String()`.
- `JsArray`: `find`/`findIndex`, `filter`, `splice(k, 1)`.
- `Credentials`: the header, `split(" ")[1]`, the secret fallback, claims, and
  the token oracles.
- `Http`: status plus JSON replies.
- `Courses`, `Students`, `Auth`, `Gateway`: the four services.
- `Scenario`: properties that span services.

## Model

| member | source | states |
|---|---|---|
| Gateway.Handle | gateway.js:18-275 | A protected route without a header gets 401 "No authorization token was sent" and no backend call. A sent header whose token fails verification gets 403 "Forbidden: Invalid token" and no backend call. A backend call happens exactly on public routes or verified tokens, goes to the route's address as `Target` builds it, and the reply's status and body are then exactly what `Translate` makes of the backend's outcome, with the verified claims as the user on protected routes. |
| Gateway.MissingVersusInvalid | gateway.js:19-24 | When no backend is called, 401 means no header was sent and 403 means one was sent: an invalid token never gets 401 and a missing one never gets 403. |
| Gateway.PublicRoutesSkipVerification | gateway.js:55-100 | `/create/user`, `/auth/login` and `/auth/create` give the same exchange under any verifier and any Authorization header, and forward no header. |
| Gateway.ForwardsHeaderVerbatim | gateway.js:104-108 | On a verified protected route other than GET /user, the backend call carries the inbound Authorization header unchanged, so the backend extracts the same token. |
| Gateway.ForwardsBodyVerbatim | gateway.js:155-162 | A backend call carries the inbound body unchanged exactly when it is a POST, PUT or PATCH. |
| Gateway.FailureShape | gateway.js:46-51 | When the backend call fails, the status is the backend's status if it sent a nonzero one, else 500. The body is `{error: route label, message}`, where message is the backend data if truthy, else the error message. A transport failure gives 500 with its message. |
| Gateway.SuccessStatusFixed | gateway.js:104-119 | Two backends that both succeed, whatever their statuses and data, give the same gateway status, which is the route's fixed constant (201 for account creation, else 200). |
| Gateway.CoursesEmpty | gateway.js:211-226 | GET /courses answers 200 `{message:"Courses empty"}` exactly when the backend list is empty, and `{message: list}` otherwise. |
| Gateway.NullCourses | gateway.js:216-223 | GET /courses with `null` backend data throws on the `length` read and answers 500 `{error: "Error fetching courses", message: <the TypeError's message>}`. |
| Gateway.SuccessBodyShaped | gateway.js:41-45 | Every route's success body is an object with a `message` member. |
| Gateway.TranslateShaped | gateway.js:211-226 | Every reply built from a backend outcome, GET /courses included, is an object with a `message` member. |
| Gateway.EveryReplyShaped | gateway.js:38-275 | Every reply that involved a backend is a JSON object with a `message` member. |
| Gateway.Target | gateway.js:38-266 | The backend call reads with GET exactly for GET /user, GET /students, GET /courses and GET /courses/students/:id. Id routes put the digit-preserving segment `IdSegment` into the address. |
| Gateway.TargetOwner | gateway.js:38-266 | Every backend address starts with the base address of the service that owns the route: the identity service for the account routes and GET /user, the student service for student routes, the course service for course routes. |
| Gateway.Envelope | gateway.js:46-50 | The failure envelope's `error` is the route's label and its `message` is the given message. |
| Gateway.Failure | gateway.js:46-50 | The status is the backend's status when it sent a nonzero one, else 500; `error` is the route label; `message` is the backend data when it is truthy, else the error's message. |
| Gateway.Translate | gateway.js:37-266 | A failed call gives the failure reply. A successful call gives the route's fixed success status, except that GET /courses with `null` data gives 500 with the TypeError of the `length` read as message. On success the backend data is passed on: under `data` next to a fixed text `message` on GET /user, the account routes, POST /students and GET /students; as the whole body `{message: data}` on the other routes, GET /courses with a non-empty list included; an empty list gives `{message: "Courses empty"}`. GET /user also carries the caller's claims under `user`. |
| Gateway.SuccessFields | gateway.js:37-200 | The members of each route's success body: the data under `data` and a text `message` on the fixed-text routes, `{message: data}` on the others, and the claims under `user` on GET /user. |
| Gateway.TwoFields | gateway.js:58-61 | Reading `data` and `message` of a `{message, data}` body gives them back, and it has no `user`. |
| Gateway.ThreeFields | gateway.js:40-44 | Reading the members of a `{message, data, user}` body gives them back. |
| Gateway.IdSubstitution | gateway.js:138-141 | The backend path segment is `parseInt` of the `:id` parameter. The backend's own `parseInt` of that segment gives the same value back. The segment holds no slash, and it is "NaN" exactly when the parameter does not parse. |
| Gateway.SpliceText | gateway.js:141 | The text spliced in for a parsed id is "NaN" exactly for NaN, and never holds a slash. |
| Gateway.TargetByParsedId | gateway.js:228-266 | For every id route, two `:id` parameters reach the same backend address exactly when their `parseInt` values are equal: "42", " 42" and "42abc" share an address, and different values never do. |
| Gateway.ExponentIdExample | gateway.js:262-265 | As written, an id of a one followed by 21 to 308 zeros parses to 10^k, yet its spliced segment parses back as 1; the digit-preserving segment parses back as 10^k. |
| Credentials.Secret | gateway.js:23 | The signing secret is the environment value when it is set and non-empty, else "fallback_secret". |
| Credentials.SpaceIndex | gateway.js:22 | Gives the first space of a string, or None exactly when there is none. |
| Credentials.BearerToken | gateway.js:22 | `split(" ")[1]` is undefined exactly when the header holds no space; otherwise it is space-free. |
| Credentials.SpaceIndexStep | gateway.js:22 | Past a first character that is not a space, the first space is one position further than in the rest. |
| Credentials.SpaceIndexAfter | gateway.js:22 | A space-free prefix shifts the first space of what follows by its length. |
| Credentials.FirstWord | gateway.js:22 | The text before the first space of a space-free word, followed by nothing or by a space, is the word. |
| Credentials.BearerTokenOf | gateway.js:22 | `split(" ")[1]` of `scheme + " " + token + tail` is the token, for a space-free scheme and token. |
| Credentials.BearerHeaderToken | courses.js:21-25 | The header `Bearer <token>` is present and yields exactly the token. |
| JsNumber.TrimStart | courses.js:97 | Removing leading white space leaves text no longer than the input that does not start with white space. |
| JsNumber.TrimStartSuffix | courses.js:97 | The trimmed text is a suffix of the input, and everything removed in front of it is white space. |
| JsNumber.DigitRun | courses.js:108 | The digit run fits in the text and stops at a character that is not a digit of the radix. |
| JsNumber.DigitRunDigits | courses.js:108 | Every character inside the digit run is a digit of the radix, so the run is the longest digit prefix. |
| JsNumber.DigitChar | gateway.js:141 | A digit character lies in '0'..'9' and has the given value. |
| JsNumber.Digits | gateway.js:141 | The decimal text of a natural number is non-empty, made of digits, and has no leading zero. |
| JsNumber.DecimalChars | gateway.js:141 | The decimal text of an integer holds only a minus sign and digits. |
| JsNumber.ValueOfDigits | gateway.js:139-141 | Reading the decimal digits of n back gives n. |
| JsNumber.TrimStartIdle | courses.js:97 | Text that does not start with white space is unchanged by the trim. |
| JsNumber.SkipSpace | courses.js:97 | `parseInt` ignores one leading white space character. |
| JsNumber.SkipPadding | courses.js:97 | `parseInt` ignores any run of leading white space in front of any text. |
| JsNumber.LeadingMinus | courses.js:97 | A leading minus sign negates whatever magnitude follows it. |
| JsNumber.MagnitudeOfDigits | gateway.js:139-141 | The digits of a natural number, read after the sign, give that number; they never look like a `0x` prefix. |
| JsNumber.NaturalRoundTrip | gateway.js:139-141 | `parseInt` of the decimal text of a non-negative integer gives that integer. |
| JsNumber.NegativeDigits | gateway.js:139-141 | `parseInt` of a minus sign followed by the digits of a natural number gives its negation. |
| JsNumber.NegativeRoundTrip | gateway.js:139-141 | `parseInt` of the decimal text of a negative integer gives that integer. |
| JsNumber.DecimalRoundTrip | gateway.js:139-141 | `parseInt` of the decimal text of any integer gives that integer. |
| JsNumber.SpliceRoundTrip | gateway.js:139-141 | `parseInt` of what a template literal splices in for a `parseInt` result gives that result back, NaN included. |
| JsNumber.DigitsOfValue | gateway.js:139-141 | Rendering the value of decimal text without a leading zero gives that text back. |
| JsNumber.RunOfDigits | courses.js:108 | On non-empty all-digit text, the decimal digit run reads every digit and gives the text's value. |
| JsNumber.ParseDecimalExample | courses.js:97 | `parseInt("42")` is 42. |
| JsNumber.ParseSignedExample | courses.js:97 | `parseInt("  -7")` is -7. |
| JsNumber.ParseHexExample | courses.js:97 | `parseInt("0x1F")` is 31. |
| JsNumber.ParsePrefixExample | courses.js:108-109 | `parseInt("12abc")` is 12, so the number check accepts it. |
| JsNumber.ParseWordExample | courses.js:108-109 | `parseInt("abc")` is NaN. |
| JsNumber.ParseNonDigit | courses.js:108-109 | Text whose first character is not white space, a sign or a decimal digit parses to NaN. |
| JsNumber.ParseEmptyExample | courses.js:108-109 | `parseInt("")` and `parseInt("-")` are NaN. |
| JsNumber.ParseInt | courses.js:97 | `parseInt(s)` with no radix: skip leading white space, read an optional sign, then radix 16 after `0x`/`0X` and radix 10 otherwise, taking the longest digit prefix; no digits gives NaN. Its properties are the lemmas around it (SkipPadding, LeadingMinus, ParseNonDigit, DecimalRoundTrip). |
| JsNumber.Significant | gateway.js:265 | Dropping trailing zeros keeps a non-empty prefix of the digits. |
| JsNumber.DigitsOfPower | gateway.js:265 | The digits of 10^k are a one followed by k zeros. |
| JsNumber.SignificantOfPower | gateway.js:265 | The significant digits of a one followed by zeros are just the one. |
| JsNumber.LargeText | gateway.js:265 | A number of more than 21 digits is converted to exponent notation. |
| JsNumber.ScientificOfPower | gateway.js:265 | A one followed by k zeros is written "1e+k". |
| JsNumber.PowerText | gateway.js:265 | From 10^21 on, a power of ten converts to "1e+" and its exponent. |
| JsNumber.StopsAtNonDigit | courses.js:166 | `parseInt` of a nonzero digit followed by a non-digit gives that digit. |
| JsNumber.ExponentParse | courses.js:166 | `parseInt("1e+…")` is 1. |
| JsNumber.ExponentSplice | gateway.js:262-265 | As written, every power of ten from 10^21 to 10^308 is spliced as text that the backend's `parseInt` reads as 1. |
| JsNumber.RunStops | courses.js:108 | A digit followed by a non-digit is a digit run of that one digit. |
| JsNumber.ScientificLead | courses.js:108 | Exponent notation starts with a digit followed by a point or an "e". |
| JsNumber.ScientificParse | courses.js:108 | `parseInt` reads exponent notation, with or without a minus sign, as its first significant digit with that sign. |
| JsNumber.NumberTextParse | courses.js:108 | `parseInt` of a number's text gives the number back up to 21 digits, and beyond that only its leading digit with its sign. |
| JsNumber.SpliceAgreesBelowExponent | gateway.js:262-265 | Below 10^21 in magnitude, the conversion as written and the digit-preserving splice give the same text. |
| JsValue.Truthy | courses.js:53 | ToBoolean of a body member: undefined, `null`, `false`, `0` and `""` are falsy; arrays and objects are truthy. FalsyValues states this as a closed list. |
| JsValue.FalsyValues | courses.js:53 | A body member is falsy exactly when it is missing, `null`, `false`, `0` or the empty string. |
| JsValue.StrictEq | auth.js:61 | `===` between separately parsed values compares primitives by value and never holds for arrays or objects. StrictEqMeaning states this. |
| JsValue.ToJsString | courses.js:64 | `String(v)` throws exactly when `v` is an object with its own `toString` member, or an array containing a value that throws, and always with "Cannot convert object to primitive value". A number converts by Number::toString, so in exponent notation from 10^21 on. |
| JsValue.ParseJs | courses.js:101-108 | `parseInt` of a body value throws exactly when converting it to a string does, with the same TypeError. Otherwise it parses that string, so a number of 10^21 or more is read from its exponent notation (ParseNumber). |
| JsValue.ThrowingExamples | courses.js:64 | `{"toString": 1}` and `[7, {"toString": null}]` throw on conversion; `{"name": "x"}` converts to "[object Object]". |
| JsValue.JoinExample | courses.js:64 | `[null, true]` converts to ",true": a null element gives the empty string. |
| JsValue.LengthIsZero | gateway.js:216 | Reading `length` throws exactly on `null`; an array's `length === 0` exactly when it is empty; numbers and booleans have no `length`, so the test is false. |
| JsValue.Lookup | courses.js:52 | Destructuring finds a key exactly when some field has it, and then gives the last such field's value. |
| JsValue.StrictEqMeaning | auth.js:61 | `===` holds exactly for equal primitives, never for arrays or objects. |
| JsValue.ParseNumber | courses.js:108 | `parseInt` of a JSON number is that number while it has at most 21 digits. From 10^21 on it is the number's leading digit with its sign, because the text is in exponent notation. |
| JsValue.ParsePower | courses.js:108 | `parseInt` of every power of ten from 10^21 to 10^308 is 1. |
| JsValue.ParseNonNumeric | courses.js:101-110 | A `null`, boolean or object studentId never parses as a number, except that an object with its own `toString` member throws "Cannot convert object to primitive value". |
| JsArray.FindIndex | courses.js:167 | Gives None exactly when no element matches, else the first matching position. |
| JsArray.Filter | students.js:72 | The result is no longer than the input, holds only matching elements of the input, and holds every matching element. FilterOne and FilterAppend fix its order and multiplicity. |
| JsArray.FilterOne | students.js:72 | A single element is kept exactly when it matches. With FilterAppend this determines `filter` completely: the matching elements, in order, each as often as it occurs. |
| JsArray.FilterAppend | students.js:72 | Filtering a concatenation is concatenating the filtered parts. |
| JsArray.RemoveAt | courses.js:174 | `splice(k, 1)` keeps the elements before k and shifts the later ones down by one. |
| Courses.Create | courses.js:50-77 | A falsy name gives 400 with the store unchanged. Otherwise the counter goes up by one and exactly one course is appended: the old counter as id, the caller as creator, the name, and no students. The reply is 201 `{message: "Course created successfully", course}` echoing the stored course, unless logging the name throws; then it is 500 `{error: "Internal server error", message}` with the course stored all the same. |
| Courses.List | courses.js:80-92 | Gives 200 with every course in store order, and the store is unchanged. |
| Courses.Enroll | courses.js:95-137 | A studentId whose conversion to text throws gives 500 before any check. Then the checks run in order: falsy studentId (400), non-numeric studentId (400), unknown course (404), already enrolled (400), else 200. Only the target course's list changes, by appending the parsed id, which for a JSON number of 10^21 or more is the leading digit of its exponent notation. The 200 reply is `{message: "Student enrolled successfully", course}` echoing the updated course. Every non-200 reply leaves the store unchanged. |
| Courses.EnrollExponentStudent | courses.js:108-123 | A studentId sent as the JSON number 10^k, for k from 21 to 308, enrols student 1 in a course that does not hold 1 yet. |
| Courses.CourseJsonFields | courses.js:55-60 | A course as sent carries its `id`, `name`, `createdBy` and `studentsEnrolled`. |
| Courses.Roster | courses.js:140-161 | Gives 404 exactly for an unknown course. For a known course it gives 200 with that course's `courseId`, `name` and enrolled list. The store is unchanged. |
| Courses.EnrolledOnlyRoster | courses.js:123-158 | After an enrollment in a course, that course's roster is the earlier roster with the new id appended. |
| Courses.EnrollThenRoster | courses.js:95-161 | After a 200 enrollment, GET /courses/:id/students for the same id lists the students it listed before, then the new student id. |
| Courses.Authenticate | courses.js:20-42 | A request is admitted exactly when a header is present and its token verifies, and then with the verified claims as caller. Otherwise the reply is 401 without a header and 403 with one. |
| Courses.Remove | courses.js:164-188 | No course with that id created by the caller gives 404 with the store unchanged. Otherwise the reply is 200 "Course with id N deleted successfully." and exactly that course is removed. The counter is unchanged either way. |
| Courses.Serve | courses.js:20-42 | No header gives 401 "No token provided" with the store unchanged. A failed verification gives 403 with the verifier's reason in `details` and the store unchanged. A verified request is handled with the verified claims as caller. The counter never decreases. |
| Courses.InitialValid | courses.js:16-17 | The empty start-up store satisfies the store invariant. |
| Courses.CreateKeepsValid | courses.js:55-63 | Create keeps ids unique, increasing and below the counter, and adds at most the old counter as a new id. |
| Courses.EnrolledOnlyIds | courses.js:113-123 | Changing only one course's enrolled list keeps every id. |
| Courses.EnrolledOnlyKeepsValid | courses.js:119-123 | Appending a student not already in the list keeps the store invariant, so no list ever holds a duplicate. |
| Courses.EnrollKeepsValid | courses.js:95-137 | Enroll keeps the store invariant and the set of ids. |
| Courses.RemoveAtIds | courses.js:174 | Removing the k-th course of a list with unique ids removes exactly its id. |
| Courses.RemoveAtKeepsValid | courses.js:174 | Dropping one course from a valid store leaves a valid store. |
| Courses.RemoveKeepsValid | courses.js:164-188 | Delete keeps the invariant and never adds an id. A 200 means the parsed id was in use, every course with that id was created by the caller, and exactly that id is gone. Otherwise the store is unchanged. |
| Courses.DispatchKeepsValid | courses.js:50-188 | Every handler keeps the invariant and introduces no id other than the current counter. |
| Courses.ServeKeepsValid | courses.js:20-188 | Every request keeps the invariant and introduces no id other than the current counter. |
| Courses.IdsNeverReissued | courses.js:17 | Once an id is below the counter and absent from the store, no sequence of requests brings it back, so a deleted course's id is never reissued. |
| Courses.ListIgnoresCaller | courses.js:80-84 | GET /courses gives the same answer to any two admitted callers and never changes the store. |
| Courses.EnrollTwice | courses.js:119-121 | After a successful enroll, repeating it gives 400 "Student already enrolled in this course" with no change, and the student is listed exactly once. |
| Courses.EnrolledOnlyLocate | courses.js:113-123 | After an enrollment, looking a course up by id finds the same position as before. |
| Students.Create | students.js:38-67 | A falsy name gives 400 with nothing stored. Otherwise one profile is appended with the old counter as id and the caller as owner. The reply is 201 `{message: "Student profile successfully created.", student}` echoing the stored profile, unless logging the name throws; then it is 500 `{error: "Internal server error", message}` with the profile stored all the same. |
| Students.List | students.js:70-81 | Gives 200 with exactly the caller's profiles in insertion order, and the store is unchanged. |
| Students.Remove | students.js:84-108 | No profile with that id owned by the caller gives 404 with the store unchanged. Otherwise exactly that profile is removed and the reply names the id. |
| Students.Replace | students.js:111-143 | A falsy name gives 400 before any lookup. Then not found or not owned gives 404. Otherwise only that profile's name is replaced, and the 200 reply `{message: "Student updated successfully", student}` echoes the updated profile. |
| Students.Patch | students.js:146-176 | Not found or not owned gives 404. Otherwise the name changes only when the body has a `name` field, id and owner never change, and the 200 reply `{message: "Student partially updated successfully", student}` echoes the updated profile. |
| Students.Authenticate | students.js:20-30 | A request is admitted exactly when a header is present and its token verifies, and then with the verified claims as caller. Otherwise the reply is 401 without a header and 403 with one. |
| Students.Serve | students.js:20-30 | No header gives 401 "No token provided"; a failed verification gives 403 "Invalid Token". The store is unchanged in both cases. A verified request is handled with the verified claims as caller. The counter never decreases. |
| Students.RenamedKeepsValid | students.js:127 | Renaming one profile keeps every id and owner, hence the invariant. |
| Students.CreateKeepsValid | students.js:46-53 | Create keeps ids unique, increasing and below the counter. |
| Students.RemoveKeepsValid | students.js:94 | Delete keeps the invariant. |
| Students.ReplaceKeepsValid | students.js:126-127 | PUT keeps the invariant. |
| Students.PatchKeepsValid | students.js:159-161 | PATCH keeps the invariant. |
| Students.DispatchKeepsValid | students.js:38-176 | Every handler keeps the invariant. |
| Students.ServeKeepsValid | students.js:20-176 | Every request keeps ids unique, increasing and below the counter. |
| Students.RemoveExactlyOne | students.js:87-95 | A successful delete removes the single caller-owned profile with that id, keeps every other profile in order, and leaves no profile with that id. |
| Students.NotOwnedIsNotFound | students.js:87-93 | A caller owning no profile with that id gets 404 from delete, PATCH and PUT (with a name), and the store is unchanged. |
| Students.ListAfterCreate | students.js:46-53 | A create adds the new profile to the end of its owner's list and changes no other user's list. |
| Auth.Create | auth.js:47-95 | A missing name or password gives 400 with the required list. A taken name gives 400 "User already exists". A throwing hash gives 500 with the store unchanged. Otherwise one user is appended with the old counter as id and the digest as password. The reply is then exactly `{message: "User created successfully", user: {id, name}}` with 201, unless logging the name throws, which gives 500 with the user stored. A 400 leaves the store unchanged. |
| Auth.Login | auth.js:97-147 | The checks run in order: missing field (400), unknown name (404), throwing compare (500), wrong password (401), else 200. On 200 the token signs exactly `{userId, name}` of the found user under the secret. The store is never changed. |
| Auth.CreateKeepsValid | auth.js:61-75 | Create keeps names pairwise distinct under `===` and ids increasing. |
| Auth.LoginIdentifiesUser | auth.js:112-126 | A successful login found the one user whose name is `===` to the given one, whose password compare accepted, and the token carries that user's claims. |
| Auth.CreateThenLogin | auth.js:67-131 | A created account with a primitive name logs in with its password when compare accepts the digest, and the token carries the new id. |
| Auth.UnmatchableNames | auth.js:61-62 | An array or object name is never found by `===`, so login always answers 404 for it. |
| Auth.CreateReplyHidesPassword | auth.js:79-86 | Two bodies with the same name and any two passwords, hashed by any two hash functions, get the same reply, so the reply carries neither the plaintext nor the digest. A 201 reply has no `password` member at either level. |
| Scenario.LoginThenCreateCourse | gateway.js:195-199 | After a successful login, POST /courses with `Bearer <token>` passes the gateway, which forwards header and body unchanged. The course service records the course as created by the account that logged in, answering 201 with that account's id as the reply's `course.createdBy`, or 500 when logging the name throws. |
| Scenario.LoginIssuesClaims | auth.js:112-131 | A successful login found an account, and its access token is the signature of exactly that account's id and name under the secret. |
| Scenario.BearerVerifies | courses.js:21-31 | An honestly signed token sent as `Bearer <token>` is a present header that verifies to the signed claims. |
| Scenario.GatewayForwardsToken | gateway.js:195-199 | The gateway passes an honestly signed bearer header and the body of POST /courses on to the course service unchanged. |
| Scenario.CourseServiceRecordsOwner | courses.js:50-66 | The course service admits an honestly signed bearer header as its claims and records them as the new course's creator, answering 201 with the same `course.createdBy`, or 500 when logging the name throws. |
| Scenario.OtherUserCannotDelete | courses.js:167-172 | A course created by one account, deleted by another through its decimal id, gives 404 and the store is unchanged. |
| Scenario.OwnerDeletes | courses.js:167-180 | The creator deleting by the decimal id gets 200, and the store is back to the courses it had before the create. |
| Scenario.ExponentIdDeletesCourseOne | gateway.js:262-265 | For an id of 10^21, or a larger power of ten up to 10^308, the segment the DELETE /courses/:id handler splices as written makes the course service's delete exactly the delete of course 1. |

## Behaviour to note

- The gateway's 401 and 403 replies are plain text (`res.send`), not JSON
  (gateway.js:20, 24).
- POST /courses through the gateway answers 200, not 201; the gateway fixes
  the status for each route (gateway.js:200). Scenario.LoginThenCreateCourse
  therefore states the 201 on the course service, which does answer it.
- A non-numeric `:id` is not forwarded as written: `parseInt` turns it into
  NaN, and the backend receives the text "NaN" (gateway.js:139-141).
- GET /user does not forward the Authorization header (gateway.js:40). The
  account routes forward none either.
- A studentId sent as a JSON number of 10^21 or more is converted to
  exponent notation before `parseInt` reads it (courses.js:108), so
  `{"studentId": 1e21}` enrols student 1.
- The three create handlers store the new record before logging its name
  (courses.js:63-64, students.js:53-54, auth.js:75-77). A name whose
  conversion to text throws therefore gets 500 although the record stays
  stored and the counter has moved on.

## Left out

- Express wiring, `app.listen`, dotenv, CORS headers and request logging
  (gateway.js:9-15, auth.js:13-23): these are plumbing.
- The JSON-syntax error middleware (auth.js:25-36). Bodies are taken to be
  what `express.json()` produces (an object or an array). Any other JSON value
  behaves as a body without fields.
- The health-check routes (gateway.js:31-33 and the `/` route of each service).
- Timestamps (`createdAt`, `updatedAt`): they come from the clock.
- The `iat` and `exp` claims, which the token library adds; the model's
  GET /user echoes only `{userId, name}`.
- Token signing and verification internals (RFC 7519) and bcrypt internals:
  they are the `Signer`, `Verifier`, `Hasher` and `Comparer` oracles.
- Which HTTP statuses the client library counts as errors: the `Backend`
  oracle decides between `Ok` and `HttpError`.
- Concurrency across `await`, for example between the duplicate-name check and
  the push in auth.js:61-75. Each handler is one atomic transition.
- Floating-point numbers and `-0`: JSON numbers are integers, and integers
  are unbounded, so digit strings above 2^53 do not round as doubles do, and
  nothing becomes Infinity beyond the largest double (about 1.8 × 10^308).
- URL decoding of path parameters: `:id` is taken as already-decoded text.
- The string-form `includes` at courses.js:119: only numbers are ever pushed,
  so it can never match.
- The `catch` blocks of the list, roster, delete, PUT and PATCH handlers:
  their `try` blocks only splice parsed numbers into text, which never throws.
- Gateway.SuccessStatusFixed: excludes GET /courses, whose reply is 500 when
  the backend data is `null` (the `.length` read throws). Gateway.NullCourses
  and Gateway.CoursesEmpty state that route instead.
- Auth.Create: does not promise that every non-201 reply leaves the store
  unchanged, because a name whose conversion throws at auth.js:77 gets 500
  after the push at auth.js:75. Only the 400 replies and a throwing hash leave
  the store as it was.
- Gateway.IdSubstitution: holds for the digit-preserving `IdSegment`. As
  written, an id of 10^21 or more is spliced in exponent notation, and the
  backend reads "1e+21" as 1, so DELETE /courses/1000000000000000000000
  reaches course 1 (see Findings). Digit strings above 2^53 would also round
  before splicing, which the integer model does not show.
- Gateway.TargetByParsedId: holds for the digit-preserving `IdSegment`. As
  written, the ids 10^21 and 10^22 reach the same address.
- JsNumber.SpliceRoundTrip: holds for `Splice`, which keeps every digit.
  `SpliceAsWritten` does not round-trip from 10^21 on (JsNumber.ExponentSplice).
- Gateway.Handle: sends the digit-preserving `IdSegment` of an `:id`
  parameter, the corrected form of `${parseInt(req.params.id)}` (see
  Findings). For ids of 10^21 or more the handlers as written send exponent
  notation instead; Gateway.IdSegmentAsWritten models that text.
- Gateway.Target: builds id addresses from the digit-preserving `IdSegment`,
  for the same reason as Gateway.Handle.
- JsNumber.ExponentSplice: holds for every power of ten from 10^21 on in the
  integer model. In the language it holds up to 10^308 only: larger values
  are Infinity, spliced as "Infinity", which `parseInt` reads as NaN, so the
  course service answers 404. Gateway.ExponentIdExample and
  Scenario.ExponentIdDeletesCourseOne are stated for every k from 21 on and
  have the same limit.
- JsValue.ParseNumber: from about 1.8 × 10^308 a JSON number is Infinity in
  the language, converts to "Infinity" and parses as NaN; the integer model
  instead reads its leading digit. JsValue.ParseJs, JsValue.ToJsString and
  JsValue.ParsePower inherit this.
- Courses.Enroll: a studentId beyond the largest double is Infinity in the
  language, so it gets 400 "Student ID must be a valid number"; the model
  enrols the number's leading digit instead. Courses.EnrollExponentStudent is
  stated for every k from 21 on and has the same limit at 10^308.
- Auth.CreateThenLogin: requires a primitive name, because `===` never matches
  an array or object name; `Auth.UnmatchableNames` covers the other case.

## Findings

| source | as written | input that shows it | evidently intended | confidence | as-written member | corrected member |
|---|---|---|---|---|---|---|
| gateway.js:262-265 | The id segment is `${parseInt(req.params.id)}`. From 10^21 on, that text is exponent notation, and the course service's `parseInt` reads "1e+21" as 1. | DELETE /courses/1000000000000000000000, sent by the creator of course 1 | The backend receives the id the client sent, digit for digit. | medium; not executed | Gateway.ExponentIdExample (with Gateway.IdSegmentAsWritten and Scenario.ExponentIdDeletesCourseOne) | Gateway.IdSubstitution (Gateway.IdSegment, proved with JsNumber.SpliceRoundTrip) |

=== FILE: auth.dfy ===
/** The identity service: an in-memory user list with an id counter, account
    creation with unique names and hashed passwords, and login that issues a
    signed token. bcrypt is two oracles (hash and compare) that may throw, and
    token signing is the Signer oracle. */
module Auth {
  import opened Wrappers
  import opened JsValue
  import opened JsArray
  import opened Credentials
  import opened Http

  /** A bcrypt digest: a stored password is always one of these, never the
      plaintext body value. */
  datatype Digest = Digest(text: string)

  /** `bcrypt.hash(password, 10)`: it throws on a value it cannot hash. */
  type Hasher = Json -> Thrown<Digest>

  /** `bcrypt.compare(password, digest)`: it throws on a value it cannot hash. */
  type Comparer = (Json, Digest) -> Thrown<bool>

  /** A stored user (its `createdAt` time stamp is not modelled). */
  datatype User = User(id: int, name: Json, password: Digest)

  /** `users` and `userId`, the next id to hand out. */
  datatype Store = Store(users: seq<User>, nextId: int)

  datatype Step = Step(reply: Reply, store: Store)

  /** The store at start-up. */
  const Initial := Store([], 1)

  /** Ids are positive, below the counter and strictly increasing; no two
      users have names that are `===` to each other. */
  predicate Valid(s: Store) {
    && 1 <= s.nextId
    && (forall i :: 0 <= i < |s.users| ==> 1 <= s.users[i].id < s.nextId)
    && (forall i, j :: 0 <= i < j < |s.users| ==> s.users[i].id < s.users[j].id)
    && (forall i, j :: 0 <= i < j < |s.users| ==> !StrictEq(s.users[i].name, s.users[j].name))
  }

  /** `users.find(u => u.name === name)`, as a position. */
  function LocateName(users: seq<User>, name: Json): Option<nat> {
    FindIndex(users, (u: User) => StrictEq(u.name, name))
  }

  /** The public view of a user: id and name, never the password. */
  function PublicUser(u: User): Json {
    JObj([("id", JNum(u.id)), ("name", u.name)])
  }

  const Required := JArr([JStr("name"), JStr("password")])

  /** POST /auth/create. The checks run in order: a field missing, the name
      taken, the password not hashable. The user is stored before the handler
      logs its name with a template literal; when that conversion throws, the
      catch block answers 500 although the user stays stored. */
  function Create(s: Store, body: Json, hash: Hasher): (r: Step)
    ensures r.reply.status == 400 ==> r.store == s
    ensures var name := Field(body, "name");
            var password := Field(body, "password");
            && (!Truthy(name) || !Truthy(password) ==>
                  r.reply == Reply(400, JObj([("error", JStr("Missing required fields")), ("required", Required)])))
            && (Truthy(name) && Truthy(password) && LocateName(s.users, name.value).Some? ==>
                  r.reply == ErrorReply(400, "User already exists"))
            && (Truthy(name) && Truthy(password) && LocateName(s.users, name.value).None? ==>
                  match hash(password.value)
                  case Threw(m) => r == Step(InternalError(m), s)
                  case Returned(d) =>
                    && r.store.nextId == s.nextId + 1
                    && r.store.users == s.users + [User(s.nextId, name.value, d)]
                    && r.reply == if StringThrows(name.value) then InternalError(PrimitiveError)
                                  else Reply(201, JObj([("message", JStr("User created successfully")),
                                                        ("user", JObj([("id", JNum(s.nextId)), ("name", name.value)]))])))
  {
    var name := Field(body, "name");
    var password := Field(body, "password");
    if !Truthy(name) || !Truthy(password) then
      Step(Reply(400, JObj([("error", JStr("Missing required fields")), ("required", Required)])), s)
    else if LocateName(s.users, name.value).Some? then
      Step(ErrorReply(400, "User already exists"), s)
    else
      match hash(password.value)
      case Threw(m) => Step(InternalError(m), s)
      case Returned(digest) =>
        var user := User(s.nextId, name.value, digest);
        var stored := Store(s.users + [user], s.nextId + 1);
        match ToJsString(name.value)
        case Threw(m) => Step(InternalError(m), stored)
        case Returned(_) =>
          Step(Reply(201, JObj([("message", JStr("User created successfully")),
                                ("user", PublicUser(user))])), stored)
  }

  /** POST /auth/login. The checks run in order: a field missing (400), no
      such name (404), the password not matching (401); a compare that throws
      gives 500. Success signs exactly `{userId, name}` of the stored user. */
  function Login(s: Store, body: Json, env: Option<string>, compare: Comparer, sign: Signer): (r: Step)
    ensures r.store == s
    ensures var name := Field(body, "name");
            var password := Field(body, "password");
            && (!Truthy(name) || !Truthy(password) ==>
                  r.reply == Reply(400, JObj([("error", JStr("Missing credentials")), ("required", Required)])))
            && (Truthy(name) && Truthy(password) ==>
                  match LocateName(s.users, name.value)
                  case None => r.reply == ErrorReply(404, "User not found")
                  case Some(k) =>
                    match compare(password.value, s.users[k].password)
                    case Threw(m) => r.reply == InternalError(m)
                    case Returned(ok) =>
                      if !ok then r.reply == ErrorReply(401, "Invalid password")
                      else
                        && r.reply.status == 200
                        && Field(r.reply.body, "accessToken")
                             == Some(JStr(sign(Claims(s.users[k].id, s.users[k].name), Secret(env))))
                        && Field(r.reply.body, "user") == Some(PublicUser(s.users[k])))
  {
    var name := Field(body, "name");
    var password := Field(body, "password");
    if !Truthy(name) || !Truthy(password) then
      Step(Reply(400, JObj([("error", JStr("Missing credentials")), ("required", Required)])), s)
    else
      match LocateName(s.users, name.value)
      case None => Step(ErrorReply(404, "User not found"), s)
      case Some(k) =>
        var user := s.users[k];
        match compare(password.value, user.password)
        case Threw(m) => Step(InternalError(m), s)
        case Returned(ok) =>
          if !ok then Step(ErrorReply(401, "Invalid password"), s)
          else
            var token := sign(Claims(user.id, user.name), Secret(env));
            var fields := [("message", JStr("Login successful")),
                           ("accessToken", JStr(token)),
                           ("user", PublicUser(user))];
            assert fields[..2][..1] == [fields[0]] && fields[..2] == [fields[0], fields[1]];
            assert Lookup(fields, "accessToken") == Some(JStr(token));
            Step(Reply(200, JObj(fields)), s)
  }

  // ----------------------------------------------------------------- lemmas

  /** Account creation keeps names unique and ids increasing. */
  lemma CreateKeepsValid(s: Store, body: Json, hash: Hasher)
    requires Valid(s)
    ensures Valid(Create(s, body, hash).store)
  {
    var r := Create(s, body, hash);
    if r.store != s {
      var name := Field(body, "name").value;
      var u := r.store.users[|s.users|];
      assert r.store.users == s.users + [u];
      assert u.name == name;
      assert LocateName(s.users, name).None?;
      forall i | 0 <= i < |s.users|
        ensures !StrictEq(r.store.users[i].name, u.name)
      {
        assert !StrictEq(s.users[i].name, name);
      }
    }
  }

  /** In a valid store at most one user answers to a name, so login can only
      ever sign that user's id and name. */
  lemma LoginIdentifiesUser(s: Store, body: Json, env: Option<string>, compare: Comparer, sign: Signer)
    requires Valid(s)
    requires Login(s, body, env, compare, sign).reply.status == 200
    ensures var name := Field(body, "name").value;
            exists k :: 0 <= k < |s.users|
              && StrictEq(s.users[k].name, name)
              && (forall j :: 0 <= j < |s.users| && StrictEq(s.users[j].name, name) ==> j == k)
              && compare(Field(body, "password").value, s.users[k].password) == Returned(true)
              && Field(Login(s, body, env, compare, sign).reply.body, "accessToken")
                   == Some(JStr(sign(Claims(s.users[k].id, s.users[k].name), Secret(env))))
  {
    var name := Field(body, "name").value;
    var k := LocateName(s.users, name).value;
    forall j | 0 <= j < |s.users| && StrictEq(s.users[j].name, name)
      ensures j == k
    {
      StrictEqMeaning(s.users[j].name, name);
      StrictEqMeaning(s.users[k].name, name);
    }
  }

  /** A created account can log in with its own password when compare accepts
      the digest hash produced for it; the token carries the new id. */
  lemma CreateThenLogin(s: Store, body: Json, env: Option<string>, hash: Hasher, compare: Comparer, sign: Signer)
    requires Valid(s)
    requires Create(s, body, hash).reply.status == 201
    requires !Field(body, "name").value.JArr? && !Field(body, "name").value.JObj?
    requires compare(Field(body, "password").value, hash(Field(body, "password").value).value) == Returned(true)
    ensures var after := Create(s, body, hash).store;
            var login := Login(after, body, env, compare, sign);
            && login.reply.status == 200
            && Field(login.reply.body, "accessToken")
                 == Some(JStr(sign(Claims(s.nextId, Field(body, "name").value), Secret(env))))
  {
    var after := Create(s, body, hash).store;
    var name := Field(body, "name").value;
    CreateKeepsValid(s, body, hash);
    assert after.users[|s.users|].name == name;
    StrictEqMeaning(name, name);
    assert StrictEq(after.users[|s.users|].name, name);
    var k := LocateName(after.users, name);
    assert k.Some?;
    assert k.value == |s.users|;
  }

  /** `===` never matches an array or object name, so such a name is never
      reported as taken and never finds its account at login. */
  lemma UnmatchableNames(s: Store, body: Json, env: Option<string>, compare: Comparer, sign: Signer)
    requires Field(body, "name").Some? && (Field(body, "name").value.JArr? || Field(body, "name").value.JObj?)
    requires Truthy(Field(body, "password"))
    ensures LocateName(s.users, Field(body, "name").value).None?
    ensures Login(s, body, env, compare, sign).reply == ErrorReply(404, "User not found")
  {
  }

  /** The reply to account creation depends on neither the password nor its
      digest: two bodies with the same name and different passwords, hashed by
      any two hash functions, get the same reply, and a 201 reply names no
      `password` member at either level. */
  lemma CreateReplyHidesPassword(s: Store, body1: Json, body2: Json, h1: Hasher, h2: Hasher)
    requires Field(body1, "name") == Field(body2, "name")
    requires Truthy(Field(body1, "password")) && Truthy(Field(body2, "password"))
    requires h1(Field(body1, "password").value).Returned? && h2(Field(body2, "password").value).Returned?
    ensures Create(s, body1, h1).reply == Create(s, body2, h2).reply
    ensures var reply := Create(s, body1, h1).reply;
            reply.status == 201 ==>
              && reply.body.JObj?
              && (forall i :: 0 <= i < |reply.body.fields| ==> reply.body.fields[i].0 != "password")
              && Field(reply.body, "user").Some? && Field(reply.body, "user").value.JObj?
              && (forall i :: 0 <= i < |Field(reply.body, "user").value.fields| ==>
                    Field(reply.body, "user").value.fields[i].0 != "password")
  {
    var reply := Create(s, body1, h1).reply;
    if reply.status == 201 {
      assert |reply.body.fields| == 2;
    }
  }
}

=== FILE: courses.dfy ===
/** The course service: an in-memory list of courses and an id counter, behind
    its own bearer-token check. Each handler is one atomic transition from a
    store to a reply and a new store. */
module Courses {
  import opened Wrappers
  import opened JsNumber
  import opened JsValue
  import opened JsArray
  import opened Credentials
  import opened Http

  /** A stored course (its `createdAt` time stamp is not modelled). */
  datatype Course = Course(id: int, name: Json, createdBy: int, studentsEnrolled: seq<int>)

  /** `courses` and `courseId`, the next id to hand out. */
  datatype Store = Store(courses: seq<Course>, nextId: int)

  datatype Step = Step(reply: Reply, store: Store)

  /** The store at start-up. */
  const Initial := Store([], 1)

  predicate Distinct(xs: seq<int>) {
    forall i, j :: 0 <= i < j < |xs| ==> xs[i] != xs[j]
  }

  /** The ids of a list of courses. */
  function Ids(courses: seq<Course>): set<int> {
    set c | c in courses :: c.id
  }

  /** What the handlers keep true of the store: ids are positive, below the
      counter and strictly increasing in list order (hence unique), and no
      course lists a student twice. */
  predicate Valid(s: Store) {
    && 1 <= s.nextId
    && (forall i :: 0 <= i < |s.courses| ==> 1 <= s.courses[i].id < s.nextId)
    && (forall i, j :: 0 <= i < j < |s.courses| ==> s.courses[i].id < s.courses[j].id)
    && (forall i :: 0 <= i < |s.courses| ==> Distinct(s.courses[i].studentsEnrolled))
  }

  /** A list of ids as a JSON array of numbers. */
  function Numbers(ids: seq<int>): seq<Json> {
    seq(|ids|, i requires 0 <= i < |ids| => JNum(ids[i]))
  }

  function CourseJson(c: Course): Json {
    JObj([("id", JNum(c.id)), ("name", c.name), ("createdBy", JNum(c.createdBy)),
          ("studentsEnrolled", JArr(Numbers(c.studentsEnrolled)))])
  }

  /** `c.id === courseId` where `courseId` is a parsed path parameter. */
  predicate HasId(c: Course, id: Parsed) {
    id.Num? && c.id == id.value
  }

  /** `courses.find(c => c.id === courseId)`, as a position. */
  function Locate(courses: seq<Course>, id: Parsed): Option<nat> {
    FindIndex(courses, (c: Course) => HasId(c, id))
  }

  /** `courses.findIndex(c => c.id === courseId && c.createdBy === userId)`. */
  function LocateOwned(courses: seq<Course>, id: Parsed, owner: int): Option<nat> {
    FindIndex(courses, (c: Course) => HasId(c, id) && c.createdBy == owner)
  }

  // ---------------------------------------------------------------- handlers

  /** POST /courses. The course is stored before the handler logs its name
      with a template literal; when that conversion throws, the catch block
      answers 500 although the course stays stored. */
  function Create(s: Store, caller: Claims, body: Json): (r: Step)
    ensures !Truthy(Field(body, "name")) ==> r == Step(ErrorReply(400, "Course name is required"), s)
    ensures Truthy(Field(body, "name")) ==>
      && r.reply.status == (if StringThrows(Field(body, "name").value) then 500 else 201)
      && (StringThrows(Field(body, "name").value) ==> r.reply == InternalError(PrimitiveError))
      && r.store.nextId == s.nextId + 1
      && |r.store.courses| == |s.courses| + 1
      && r.store.courses[..|s.courses|] == s.courses
      && r.store.courses[|s.courses|].id == s.nextId
      && r.store.courses[|s.courses|].name == Field(body, "name").value
      && r.store.courses[|s.courses|].createdBy == caller.userId
      && r.store.courses[|s.courses|].studentsEnrolled == []
    ensures Truthy(Field(body, "name")) && !StringThrows(Field(body, "name").value) ==>
      r.reply.body == JObj([("message", JStr("Course created successfully")),
                            ("course", CourseJson(r.store.courses[|s.courses|]))])
  {
    var name := Field(body, "name");
    if !Truthy(name) then Step(ErrorReply(400, "Course name is required"), s)
    else
      var course := Course(s.nextId, name.value, caller.userId, []);
      var stored := Store(s.courses + [course], s.nextId + 1);
      match ToJsString(name.value)
      case Threw(m) => Step(InternalError(m), stored)
      case Returned(_) =>
        Step(Reply(201, JObj([("message", JStr("Course created successfully")),
                              ("course", CourseJson(course))])), stored)
  }

  /** GET /courses: every course, whoever asks. */
  function List(s: Store): (r: Step)
    ensures r.store == s && r.reply.status == 200
    ensures r.reply.body.JArr? && |r.reply.body.items| == |s.courses|
    ensures forall i :: 0 <= i < |s.courses| ==> r.reply.body.items[i] == CourseJson(s.courses[i])
  {
    Step(Reply(200, JArr(seq(|s.courses|, i requires 0 <= i < |s.courses| => CourseJson(s.courses[i])))), s)
  }

  /** The effect of a successful enrollment: the parsed student id is appended
      to course `k` and nothing else in the store changes. */
  predicate EnrolledOnly(before: Store, after: Store, k: nat, n: int)
    requires k < |before.courses|
  {
    && after.nextId == before.nextId
    && |after.courses| == |before.courses|
    && (forall i :: 0 <= i < |before.courses| && i != k ==> after.courses[i] == before.courses[i])
    && after.courses[k].id == before.courses[k].id
    && after.courses[k].name == before.courses[k].name
    && after.courses[k].createdBy == before.courses[k].createdBy
    && after.courses[k].studentsEnrolled == before.courses[k].studentsEnrolled + [n]
  }

  /** POST /courses/:id/enroll. The handler first logs studentId with a
      template literal, which throws for the values `StringThrows` names;
      then the checks run in a fixed order: studentId missing, studentId not
      a number, course unknown, already enrolled. */
  function Enroll(s: Store, idParam: string, body: Json): (r: Step)
    ensures r.reply.status != 200 ==> r.store == s
    ensures Field(body, "studentId").Some? && StringThrows(Field(body, "studentId").value) ==>
      r.reply == InternalError(PrimitiveError)
    ensures !Truthy(Field(body, "studentId")) ==>
      r.reply == ErrorReply(400, "Student ID is required")
    ensures Truthy(Field(body, "studentId")) && ParseJs(Field(body, "studentId").value) == Returned(NaN) ==>
      r.reply == ErrorReply(400, "Student ID must be a valid number")
    ensures Truthy(Field(body, "studentId")) && ParseJs(Field(body, "studentId").value).Returned?
            && ParseJs(Field(body, "studentId").value).value.Num? ==>
      var n := ParseJs(Field(body, "studentId").value).value.value;
      match Locate(s.courses, ParseInt(idParam))
      case None => r.reply == ErrorReply(404, "Course not found")
      case Some(k) =>
        if n in s.courses[k].studentsEnrolled
        then r.reply == ErrorReply(400, "Student already enrolled in this course")
        else && r.reply.status == 200 && EnrolledOnly(s, r.store, k, n)
             && r.reply.body == JObj([("message", JStr("Student enrolled successfully")),
                                      ("course", CourseJson(r.store.courses[k]))])
  {
    var studentId := Field(body, "studentId");
    if studentId.Some? && ToJsString(studentId.value).Threw? then
      Step(InternalError(ToJsString(studentId.value).message), s)
    else if !Truthy(studentId) then Step(ErrorReply(400, "Student ID is required"), s)
    else
      match ParseJs(studentId.value)
      case Threw(m) => Step(InternalError(m), s)
      case Returned(NaN) => Step(ErrorReply(400, "Student ID must be a valid number"), s)
      case Returned(Num(n)) =>
        match Locate(s.courses, ParseInt(idParam))
        case None => Step(ErrorReply(404, "Course not found"), s)
        case Some(k) =>
          var course := s.courses[k];
          if n in course.studentsEnrolled
          then Step(ErrorReply(400, "Student already enrolled in this course"), s)
          else
            var updated := course.(studentsEnrolled := course.studentsEnrolled + [n]);
            var reply := Reply(200, JObj([("message", JStr("Student enrolled successfully")),
                                          ("course", CourseJson(updated))]));
            Step(reply, s.(courses := s.courses[k := updated]))
  }

  /** GET /courses/:id/students. */
  function Roster(s: Store, idParam: string): (r: Step)
    ensures r.store == s
    ensures Locate(s.courses, ParseInt(idParam)).None? <==> r.reply == ErrorReply(404, "Course not found")
    ensures Locate(s.courses, ParseInt(idParam)).Some? ==>
      var c := s.courses[Locate(s.courses, ParseInt(idParam)).value];
      && HasId(c, ParseInt(idParam))
      && r.reply.status == 200
      && Field(r.reply.body, "courseId") == Some(JNum(c.id))
      && Field(r.reply.body, "name") == Some(c.name)
      && Field(r.reply.body, "studentsEnrolled") == Field(CourseJson(c), "studentsEnrolled")
  {
    match Locate(s.courses, ParseInt(idParam))
    case None => Step(ErrorReply(404, "Course not found"), s)
    case Some(k) =>
      var c := s.courses[k];
      var enrolled := Field(CourseJson(c), "studentsEnrolled").value;
      var fields := [("courseId", JNum(c.id)), ("name", c.name), ("studentsEnrolled", enrolled)];
      assert fields[..2][..1] == [fields[0]] && fields[..2] == [fields[0], fields[1]];
      Step(Reply(200, JObj(fields)), s)
  }

  /** DELETE /courses/:id: only the creator may delete. */
  function Remove(s: Store, caller: Claims, idParam: string): (r: Step)
    ensures r.store.nextId == s.nextId
    ensures LocateOwned(s.courses, ParseInt(idParam), caller.userId).None? ==>
      r == Step(ErrorReply(404, "Course not found or not owned by this user"), s)
    ensures LocateOwned(s.courses, ParseInt(idParam), caller.userId).Some? ==>
      var k := LocateOwned(s.courses, ParseInt(idParam), caller.userId).value;
      && r.reply == MessageReply(200, "Course with id " + Splice(ParseInt(idParam)) + " deleted successfully.")
      && r.store.courses == RemoveAt(s.courses, k)
  {
    var id := ParseInt(idParam);
    match LocateOwned(s.courses, id, caller.userId)
    case None => Step(ErrorReply(404, "Course not found or not owned by this user"), s)
    case Some(k) =>
      Step(MessageReply(200, "Course with id " + Splice(id) + " deleted successfully."),
           s.(courses := RemoveAt(s.courses, k)))
  }

  // ---------------------------------------------------------- authentication

  datatype Endpoint =
    | CreateCourse(body: Json)
    | ListCourses
    | EnrollStudent(id: string, body: Json)
    | ListEnrolled(id: string)
    | DeleteCourse(id: string)

  datatype Request = Request(authorization: Option<string>, endpoint: Endpoint)

  /** The service's `authenticate` middleware: 401 without a header, 403 with
      the verifier's reason when the token does not verify. */
  function Authenticate(authorization: Option<string>, env: Option<string>, verify: Verifier): (r: Result)
    ensures r.Admitted? <==> Present(authorization) && verify(TokenOf(authorization), Secret(env)).Verified?
    ensures r.Admitted? ==> r.caller == verify(TokenOf(authorization), Secret(env)).claims
    ensures r.Denied? ==> r.reply.status == (if Present(authorization) then 403 else 401)
  {
    if !Present(authorization) then Denied(ErrorReply(401, "No token provided"))
    else
      match verify(TokenOf(authorization), Secret(env))
      case Rejected(reason) =>
        Denied(Reply(403, JObj([("error", JStr("Invalid Token")), ("details", JStr(reason))])))
      case Verified(claims) => Admitted(claims)
  }

  datatype Result = Admitted(caller: Claims) | Denied(reply: Reply)

  /** The handler an admitted request reaches. */
  function Dispatch(s: Store, caller: Claims, e: Endpoint): Step {
    match e
    case CreateCourse(body) => Create(s, caller, body)
    case ListCourses => List(s)
    case EnrollStudent(id, body) => Enroll(s, id, body)
    case ListEnrolled(id) => Roster(s, id)
    case DeleteCourse(id) => Remove(s, caller, id)
  }

  /** One request to the course service. */
  function Serve(s: Store, req: Request, env: Option<string>, verify: Verifier): (r: Step)
    ensures !Present(req.authorization) ==> r == Step(ErrorReply(401, "No token provided"), s)
    ensures Present(req.authorization) && verify(TokenOf(req.authorization), Secret(env)).Rejected? ==>
      r.store == s && r.reply.status == 403
      && Field(r.reply.body, "details") == Some(JStr(verify(TokenOf(req.authorization), Secret(env)).reason))
    ensures Present(req.authorization) && verify(TokenOf(req.authorization), Secret(env)).Verified? ==>
      r == Dispatch(s, verify(TokenOf(req.authorization), Secret(env)).claims, req.endpoint)
    ensures r.store.nextId >= s.nextId
  {
    match Authenticate(req.authorization, env, verify)
    case Denied(reply) => Step(reply, s)
    case Admitted(caller) => Dispatch(s, caller, req.endpoint)
  }

  /** The store after a sequence of requests, each applied atomically. */
  function Run(s: Store, reqs: seq<Request>, env: Option<string>, verify: Verifier): Store
    decreases |reqs|
  {
    if |reqs| == 0 then s
    else Run(Serve(s, reqs[0], env, verify).store, reqs[1..], env, verify)
  }

  // ----------------------------------------------------------------- lemmas

  lemma InitialValid()
    ensures Valid(Initial)
  {
  }

  /** Create keeps the store valid and hands out an id above every id in use. */
  lemma CreateKeepsValid(s: Store, caller: Claims, body: Json)
    requires Valid(s)
    ensures Valid(Create(s, caller, body).store)
    ensures forall c :: c in s.courses ==> c.id < s.nextId
    ensures Ids(Create(s, caller, body).store.courses) <= Ids(s.courses) + {s.nextId}
  {
    var r := Create(s, caller, body);
    if Truthy(Field(body, "name")) {
      assert r.store.courses == s.courses + [r.store.courses[|s.courses|]];
    }
  }

  /** Changing the enrollment list of one course keeps every id in place. */
  lemma {:induction false} EnrolledOnlyIds(before: Store, after: Store, k: nat, n: int)
    requires k < |before.courses| && EnrolledOnly(before, after, k, n)
    ensures forall i :: 0 <= i < |before.courses| ==> after.courses[i].id == before.courses[i].id
    ensures Ids(after.courses) == Ids(before.courses)
  {
    forall x | x in Ids(after.courses)
      ensures x in Ids(before.courses)
    {
      var c :| c in after.courses && c.id == x;
      var i :| 0 <= i < |after.courses| && after.courses[i] == c;
      assert before.courses[i] in before.courses;
    }
    forall x | x in Ids(before.courses)
      ensures x in Ids(after.courses)
    {
      var c :| c in before.courses && c.id == x;
      var i :| 0 <= i < |before.courses| && before.courses[i] == c;
      assert after.courses[i] in after.courses;
    }
  }

  lemma EnrolledOnlyKeepsValid(before: Store, after: Store, k: nat, n: int)
    requires Valid(before) && k < |before.courses| && EnrolledOnly(before, after, k, n)
    requires n !in before.courses[k].studentsEnrolled
    ensures Valid(after)
  {
    EnrolledOnlyIds(before, after, k, n);
    var xs := before.courses[k].studentsEnrolled;
    assert Distinct(xs + [n]);
  }

  /** Enrollment keeps the store valid: in particular no list gains a duplicate. */
  lemma EnrollKeepsValid(s: Store, idParam: string, body: Json)
    requires Valid(s)
    ensures Valid(Enroll(s, idParam, body).store)
    ensures Ids(Enroll(s, idParam, body).store.courses) == Ids(s.courses)
  {
    var r := Enroll(s, idParam, body);
    if r.reply.status == 200 {
      var n := ParseJs(Field(body, "studentId").value).value.value;
      var k := Locate(s.courses, ParseInt(idParam)).value;
      EnrolledOnlyIds(s, r.store, k, n);
      EnrolledOnlyKeepsValid(s, r.store, k, n);
    }
  }

  /** The ids of a concatenation are the ids of its parts. */
  lemma IdsConcat(a: seq<Course>, b: seq<Course>)
    ensures Ids(a + b) == Ids(a) + Ids(b)
  {
    assert forall c :: c in a + b <==> c in a || c in b;
  }

  /** With strictly increasing ids, the k-th id occurs nowhere else. */
  lemma IdElsewhere(xs: seq<Course>, k: nat)
    requires k < |xs|
    requires forall i, j :: 0 <= i < j < |xs| ==> xs[i].id < xs[j].id
    ensures xs[k].id !in Ids(xs[..k]) && xs[k].id !in Ids(xs[k + 1..])
  {
  }

  /** Removing one course takes exactly its id out of the ids in use. */
  lemma RemoveAtIds(before: seq<Course>, k: nat)
    requires k < |before|
    requires forall i, j :: 0 <= i < j < |before| ==> before[i].id < before[j].id
    ensures Ids(RemoveAt(before, k)) == Ids(before) - {before[k].id}
  {
    var (a, c, b) := (before[..k], before[k], before[k + 1..]);
    assert before == (a + [c]) + b;
    assert RemoveAt(before, k) == a + b;
    IdsConcat(a + [c], b);
    IdsConcat(a, [c]);
    IdsConcat(a, b);
    assert Ids([c]) == {c.id};
    IdElsewhere(before, k);
  }

  /** Dropping one course from a valid store leaves a valid store. */
  lemma RemoveAtKeepsValid(s: Store, k: nat)
    requires Valid(s) && k < |s.courses|
    ensures Valid(s.(courses := RemoveAt(s.courses, k)))
  {
    var after := RemoveAt(s.courses, k);
    forall i, j | 0 <= i < j < |after|
      ensures after[i].id < after[j].id
    {
      var i' := if i < k then i else i + 1;
      var j' := if j < k then j else j + 1;
      assert after[i] == s.courses[i'] && after[j] == s.courses[j'];
    }
  }

  /** Delete keeps the store valid and removes exactly one id: the one asked
      for, from a course the caller created. */
  lemma RemoveKeepsValid(s: Store, caller: Claims, idParam: string)
    requires Valid(s)
    ensures Valid(Remove(s, caller, idParam).store)
    ensures Remove(s, caller, idParam).reply.status == 200 ==>
      && ParseInt(idParam).Num?
      && ParseInt(idParam).value in Ids(s.courses)
      && (forall i :: 0 <= i < |s.courses| && s.courses[i].id == ParseInt(idParam).value ==>
            s.courses[i].createdBy == caller.userId)
      && Ids(Remove(s, caller, idParam).store.courses) == Ids(s.courses) - {ParseInt(idParam).value}
    ensures Remove(s, caller, idParam).reply.status != 200 ==> Remove(s, caller, idParam).store == s
    ensures Ids(Remove(s, caller, idParam).store.courses) <= Ids(s.courses)
  {
    var id := ParseInt(idParam);
    var found := LocateOwned(s.courses, id, caller.userId);
    if found.Some? {
      var k := found.value;
      assert s.courses[k] in s.courses;
      RemoveAtKeepsValid(s, k);
      RemoveAtIds(s.courses, k);
    }
  }

  /** Every handler keeps the store valid and can only add the counter's id. */
  lemma DispatchKeepsValid(s: Store, caller: Claims, e: Endpoint)
    requires Valid(s)
    ensures Valid(Dispatch(s, caller, e).store)
    ensures Ids(Dispatch(s, caller, e).store.courses) <= Ids(s.courses) + {s.nextId}
  {
    match e
    case CreateCourse(body) => CreateKeepsValid(s, caller, body);
    case ListCourses =>
    case EnrollStudent(id, body) => EnrollKeepsValid(s, id, body);
    case ListEnrolled(id) =>
    case DeleteCourse(id) => RemoveKeepsValid(s, caller, id);
  }

  /** Every request keeps the store valid, and a request can only add an id
      that is the counter's value at the time. */
  lemma ServeKeepsValid(s: Store, req: Request, env: Option<string>, verify: Verifier)
    requires Valid(s)
    ensures Valid(Serve(s, req, env, verify).store)
    ensures Ids(Serve(s, req, env, verify).store.courses) <= Ids(s.courses) + {s.nextId}
  {
    match Authenticate(req.authorization, env, verify)
    case Denied(_) =>
    case Admitted(caller) => DispatchKeepsValid(s, caller, req.endpoint);
  }

  /** An id that is below the counter and not in use (a deleted course's id)
      never comes back, whatever requests follow. */
  lemma {:induction false} IdsNeverReissued(s: Store, reqs: seq<Request>, env: Option<string>, verify: Verifier, n: int)
    requires Valid(s)
    requires n < s.nextId && n !in Ids(s.courses)
    ensures Valid(Run(s, reqs, env, verify))
    ensures n !in Ids(Run(s, reqs, env, verify).courses)
    decreases |reqs|
  {
    if |reqs| > 0 {
      var next := Serve(s, reqs[0], env, verify).store;
      ServeKeepsValid(s, reqs[0], env, verify);
      IdsNeverReissued(next, reqs[1..], env, verify, n);
    }
  }

  /** The reply to GET /courses does not depend on who asks. */
  lemma ListIgnoresCaller(s: Store, a: Option<string>, b: Option<string>, env: Option<string>, verify: Verifier)
    requires Authenticate(a, env, verify).Admitted? && Authenticate(b, env, verify).Admitted?
    ensures Serve(s, Request(a, ListCourses), env, verify) == Serve(s, Request(b, ListCourses), env, verify)
    ensures Serve(s, Request(a, ListCourses), env, verify).store == s
  {
  }

  /** Enrolling the same student in the same course twice: the second attempt
      is refused with 400, and the student is listed exactly once. */
  lemma EnrollTwice(s: Store, idParam: string, body: Json)
    requires Valid(s)
    requires Enroll(s, idParam, body).reply.status == 200
    ensures var first := Enroll(s, idParam, body).store;
            var second := Enroll(first, idParam, body);
            && second.reply == ErrorReply(400, "Student already enrolled in this course")
            && second.store == first
            && var k := Locate(first.courses, ParseInt(idParam)).value;
               var n := ParseJs(Field(body, "studentId").value).value.value;
               n in first.courses[k].studentsEnrolled && Distinct(first.courses[k].studentsEnrolled)
  {
    var first := Enroll(s, idParam, body).store;
    var n := ParseJs(Field(body, "studentId").value).value.value;
    var k := Locate(s.courses, ParseInt(idParam)).value;
    EnrollKeepsValid(s, idParam, body);
    EnrolledOnlyLocate(s, first, k, n, ParseInt(idParam));
    assert n in first.courses[k].studentsEnrolled;
  }

  /** The roster of a known course lists its enrolled ids as numbers. */
  lemma RosterList(s: Store, idParam: string)
    requires Locate(s.courses, ParseInt(idParam)).Some?
    ensures var enrolled := s.courses[Locate(s.courses, ParseInt(idParam)).value].studentsEnrolled;
            && Roster(s, idParam).reply.status == 200
            && Field(Roster(s, idParam).reply.body, "studentsEnrolled")
               == Some(JArr(Numbers(enrolled)))
  {
  }

  lemma NumbersAppend(ids: seq<int>, n: int)
    ensures Numbers(ids + [n]) == Numbers(ids) + [JNum(n)]
  {
  }

  /** After an enrollment in course `k`, that course's roster gains the new id at the end. */
  lemma EnrolledOnlyRoster(before: Store, after: Store, k: nat, n: int, idParam: string)
    requires k < |before.courses| && EnrolledOnly(before, after, k, n)
    requires Locate(before.courses, ParseInt(idParam)) == Some(k)
    ensures Roster(before, idParam).reply.status == 200 && Roster(after, idParam).reply.status == 200
    ensures var was := before.courses[k].studentsEnrolled;
            && Field(Roster(before, idParam).reply.body, "studentsEnrolled")
               == Some(JArr(Numbers(was)))
            && Field(Roster(after, idParam).reply.body, "studentsEnrolled")
               == Some(JArr(Numbers(was) + [JNum(n)]))
  {
    EnrolledOnlyLocate(before, after, k, n, ParseInt(idParam));
    RosterList(before, idParam);
    RosterList(after, idParam);
    NumbersAppend(before.courses[k].studentsEnrolled, n);
  }

  /** Roster is the read side of Enroll: after a successful enrollment, the
      course's roster is the roster before it with the new student id appended. */
  lemma EnrollThenRoster(s: Store, idParam: string, body: Json)
    requires Enroll(s, idParam, body).reply.status == 200
    ensures var n := ParseJs(Field(body, "studentId").value).value.value;
            var before := Roster(s, idParam).reply;
            var after := Roster(Enroll(s, idParam, body).store, idParam).reply;
            && before.status == 200 && after.status == 200
            && Field(before.body, "studentsEnrolled").Some?
            && Field(before.body, "studentsEnrolled").value.JArr?
            && Field(after.body, "studentsEnrolled")
               == Some(JArr(Field(before.body, "studentsEnrolled").value.items + [JNum(n)]))
  {
    var n := ParseJs(Field(body, "studentId").value).value.value;
    var k := Locate(s.courses, ParseInt(idParam)).value;
    EnrolledOnlyRoster(s, Enroll(s, idParam, body).store, k, n, idParam);
  }

  /** A studentId sent as a JSON number of 10^21 or more is converted to
      exponent notation before `parseInt` reads it, so a power of ten that
      large enrols student 1. */
  lemma EnrollExponentStudent(s: Store, idParam: string, k: nat)
    requires k >= 21
    requires Locate(s.courses, ParseInt(idParam)).Some?
    requires 1 !in s.courses[Locate(s.courses, ParseInt(idParam)).value].studentsEnrolled
    ensures var r := Enroll(s, idParam, JObj([("studentId", JNum(Pow10(k)))]));
            var c := Locate(s.courses, ParseInt(idParam)).value;
            && r.reply.status == 200
            && r.store.courses[c].studentsEnrolled == s.courses[c].studentsEnrolled + [1]
  {
    ParsePower(k);
    DigitsOfPower(k);
    assert Pow10(k) != 0 by { assert Digits(Pow10(k))[0] == '1'; }
  }

  /** The members of a course as the service sends it. */
  lemma CourseJsonFields(c: Course)
    ensures Field(CourseJson(c), "id") == Some(JNum(c.id))
    ensures Field(CourseJson(c), "name") == Some(c.name)
    ensures Field(CourseJson(c), "createdBy") == Some(JNum(c.createdBy))
    ensures Field(CourseJson(c), "studentsEnrolled") == Some(JArr(Numbers(c.studentsEnrolled)))
  {
    var fields := CourseJson(c).fields;
    assert fields[..3] == [fields[0], fields[1], fields[2]];
    assert fields[..3][..2] == [fields[0], fields[1]];
    assert fields[..3][..2][..1] == [fields[0]];
  }

  /** An enrollment moves no course, so every lookup by id finds the same position. */
  lemma EnrolledOnlyLocate(before: Store, after: Store, k: nat, n: int, id: Parsed)
    requires k < |before.courses| && EnrolledOnly(before, after, k, n)
    ensures Locate(after.courses, id) == Locate(before.courses, id)
  {
    EnrolledOnlyIds(before, after, k, n);
    assert forall i :: 0 <= i < |after.courses| ==> (HasId(after.courses[i], id) <==> HasId(before.courses[i], id));
  }
}

=== FILE: credentials.dfy ===
/** Bearer credentials as every service reads them: the `Authorization` header,
    the token taken out of it with `split(" ")[1]`, the shared secret with its
    fallback, and the JSON Web Token library as two oracles (sign and verify;
    RFC 7519 signing, expiry and encoding are not modelled). */
module Credentials {
  import opened Wrappers
  import opened JsValue

  /** The claims login signs: `{userId, name}` (the library's `iat`/`exp` time
      stamps are not modelled). Login is the only signer holding the secret, so
      every token that verifies carries claims of this shape. */
  datatype Claims = Claims(userId: int, name: Json)

  /** What `jwt.verify(token, secret, callback)` hands its callback. */
  datatype Verdict = Verified(claims: Claims) | Rejected(reason: string)

  /** `jwt.verify`, given the token (`None` for `undefined`) and the secret. */
  type Verifier = (Option<string>, string) -> Verdict

  /** `jwt.sign(payload, secret, {expiresIn: "1h"})`. */
  type Signer = (Claims, string) -> string

  const FallbackSecret := "fallback_secret"

  /** `process.env.ACCESS_TOKEN || "fallback_secret"`. */
  function Secret(env: Option<string>): (secret: string)
    ensures env.Some? && env.value != "" ==> secret == env.value
    ensures env.None? || env.value == "" ==> secret == FallbackSecret
  {
    match env
    case Some(s) => if s != "" then s else FallbackSecret
    case None => FallbackSecret
  }

  /** `if (!headerReq)`: a header that is absent or empty counts as missing. */
  predicate Present(header: Option<string>) {
    header.Some? && header.value != ""
  }

  /** The position of the first space in `s`. */
  function SpaceIndex(s: string): (r: Option<nat>)
    ensures r.None? <==> ' ' !in s
    ensures r.Some? ==> r.value < |s| && s[r.value] == ' ' && forall i :: 0 <= i < r.value ==> s[i] != ' '
  {
    if |s| == 0 then None
    else if s[0] == ' ' then Some(0)
    else
      match SpaceIndex(s[1..])
      case None => None
      case Some(k) => Some(k + 1)
  }

  /** `header.split(" ")[1]`: the text between the first space and the next
      one (or the end); `undefined` when the header holds no space. */
  function BearerToken(header: string): (r: Option<string>)
    ensures r.None? <==> ' ' !in header
    ensures r.Some? ==> ' ' !in r.value
  {
    match SpaceIndex(header)
    case None => None
    case Some(i) =>
      var rest := header[i + 1..];
      match SpaceIndex(rest)
      case None => Some(rest)
      case Some(j) => Some(rest[..j])
  }

  /** The token `verify` is handed for a present header. */
  function TokenOf(header: Option<string>): Option<string> {
    match header
    case Some(h) => BearerToken(h)
    case None => None
  }

  /** Past a first character that is not a space, the first space is one
      further on than in the rest. */
  lemma SpaceIndexStep(s: string)
    requires |s| > 0 && s[0] != ' '
    ensures SpaceIndex(s) == (match SpaceIndex(s[1..]) case None => None case Some(k) => Some(k + 1))
  {
  }

  /** A prefix free of spaces does not move the first space of what follows. */
  lemma {:induction false} SpaceIndexAfter(a: string, b: string)
    requires ' ' !in a
    ensures SpaceIndex(a + b) == (match SpaceIndex(b) case None => None case Some(k) => Some(|a| + k))
  {
    if |a| > 0 {
      var ab := a + b;
      assert ab[0] == a[0];
      SpaceIndexStep(ab);
      assert ab[1..] == a[1..] + b;
      SpaceIndexAfter(a[1..], b);
    } else {
      assert a + b == b;
    }
  }

  /** The text up to the first space of a space-free word followed by nothing
      or by a space is the word itself. */
  lemma FirstWord(token: string, tail: string)
    requires ' ' !in token
    requires tail == "" || tail[0] == ' '
    ensures (match SpaceIndex(token + tail) case None => token + tail case Some(j) => (token + tail)[..j]) == token
  {
    SpaceIndexAfter(token, tail);
    if tail == "" {
      assert token + tail == token;
      assert SpaceIndex(token + tail) == None;
    } else {
      assert SpaceIndex(tail) == Some(0);
      assert (token + tail)[..|token|] == token;
    }
  }

  /** `split(" ")[1]` inverts building a header from a space-free scheme and a
      space-free token, whatever follows after a further space. */
  lemma BearerTokenOf(scheme: string, token: string, tail: string)
    requires ' ' !in scheme && ' ' !in token
    requires tail == "" || tail[0] == ' '
    ensures BearerToken(scheme + " " + token + tail) == Some(token)
  {
    var after := " " + token + tail;
    var h := scheme + after;
    assert h == scheme + " " + token + tail;
    assert SpaceIndex(after) == Some(0);
    SpaceIndexAfter(scheme, after);
    assert h[|scheme| + 1..] == token + tail;
    FirstWord(token, tail);
  }

  /** The header a client sends after login: `Bearer <token>`. */
  function BearerHeader(token: string): string {
    "Bearer " + token
  }

  lemma BearerHeaderToken(token: string)
    requires ' ' !in token
    ensures Present(Some(BearerHeader(token)))
    ensures TokenOf(Some(BearerHeader(token))) == Some(token)
  {
    BearerTokenOf("Bearer", token, "");
    assert BearerHeader(token) == "Bearer" + " " + token + "";
  }

  /** `req.user` rendered as JSON. */
  function ClaimsJson(c: Claims): Json {
    JObj([("userId", JNum(c.userId)), ("name", c.name)])
  }
}

=== FILE: gateway.dfy ===
/** The gateway: for each inbound request it decides whether a credential is
    needed, checks it, makes exactly one call to the backend that owns the
    resource, and reshapes the backend's answer into its own reply. The
    backend is an oracle from the call the gateway makes to the outcome the
    HTTP client reports; which statuses the client treats as errors is left to
    that oracle. */
module Gateway {
  import opened Wrappers
  import opened JsNumber
  import opened JsValue
  import opened Credentials

  /** The backend registry: fixed base addresses. */
  const AuthService := "http://localhost:3000"
  const StudentService := "http://localhost:4000"
  const CourseService := "http://localhost:5000"

  /** The gateway's own routes; `id` is the raw `:id` path parameter. */
  datatype Route =
    | GetUser                       // GET    /user
    | CreateUser                    // POST   /create/user
    | Login                         // POST   /auth/login
    | AuthCreate                    // POST   /auth/create
    | AddStudent                    // POST   /students
    | ListStudents                  // GET    /students
    | DeleteStudent(id: string)     // DELETE /students/:id
    | UpdateStudent(id: string)     // PUT    /students/:id
    | PatchStudent(id: string)      // PATCH  /students/:id
    | CreateCourse                  // POST   /courses
    | ListCourses                   // GET    /courses
    | EnrollInCourse(id: string)    // POST   /courses/enroll/:id
    | CourseStudents(id: string)    // GET    /courses/students/:id
    | DeleteCourse(id: string)      // DELETE /courses/:id

  datatype Request = Request(route: Route, authorization: Option<string>, body: Json)

  datatype Method = Get | Post | Put | Patch | Delete

  /** The one backend call a request turns into. */
  datatype Call = Call(verb: Method, url: string, body: Option<Json>, authorization: Option<string>)

  /** What the HTTP client reports: a response it accepted, a response it
      rejected (`error.response` is set), or no response at all. */
  datatype Outcome =
    | Ok(status: int, data: Json)
    | HttpError(status: int, data: Json, message: string)
    | Transport(message: string)

  type Backend = Call -> Outcome

  /** `res.send(text)` or `res.json(body)`. */
  datatype Payload = Text(text: string) | Body(json: Json)

  /** The backend call made, if any, and the reply sent to the client. */
  datatype Exchange = Exchange(call: Option<Call>, status: int, payload: Payload)

  const NoTokenText := "No authorization token was sent"
  const ForbiddenText := "Forbidden: Invalid token"

  /** What reading `length` of `null` throws. */
  const NullLengthMessage := "Cannot read properties of null (reading 'length')"

  /** The routes mounted without the authentication middleware. */
  predicate Public(r: Route) {
    r.CreateUser? || r.Login? || r.AuthCreate?
  }

  /** The routes whose backend call carries the inbound Authorization header:
      every protected route except GET /user. */
  predicate ForwardsAuthorization(r: Route) {
    !Public(r) && !r.GetUser?
  }

  /** The `:id` parameter of a route that has one. */
  function IdOf(r: Route): Option<string> {
    match r
    case DeleteStudent(id) => Some(id)
    case UpdateStudent(id) => Some(id)
    case PatchStudent(id) => Some(id)
    case EnrollInCourse(id) => Some(id)
    case CourseStudents(id) => Some(id)
    case DeleteCourse(id) => Some(id)
    case _ => None
  }

  /** The path segment the model sends to the backend for an `:id` parameter:
      the digits of its `parseInt` value, or "NaN". This is the corrected form of
      `${parseInt(req.params.id)}`, which agrees with it below 10^21 in
      magnitude (SpliceAgreesBelowExponent); IdSegmentAsWritten is the
      conversion the language performs. */
  function IdSegment(id: string): string {
    Splice(ParseInt(id))
  }

  /** The `error` label of each route's failure envelope. */
  function Label(r: Route): string {
    match r
    case GetUser => "Failed to fetch from auth service"
    case CreateUser => "Error creating user"
    case Login => "Login failed"
    case AuthCreate => "Error creating user"
    case AddStudent => "Error adding student"
    case ListStudents => "Error getting students"
    case DeleteStudent(_) => "Error deleting student"
    case UpdateStudent(_) => "Error updating student"
    case PatchStudent(_) => "Error patching student"
    case CreateCourse => "Error creating course"
    case ListCourses => "Error fetching courses"
    case EnrollInCourse(_) => "Error enrolling student in course"
    case CourseStudents(_) => "Error fetching students of course"
    case DeleteCourse(_) => "Error deleting course"
  }

  /** The student service's address for one profile. */
  function StudentItem(segment: string): string {
    StudentService + "/students/" + segment
  }

  /** The course service's address for one course, with a sub-resource. */
  function CourseItem(segment: string, rest: string): string {
    CourseService + "/courses/" + segment + rest
  }

  /** The service that owns a route's resource. */
  function Owner(r: Route): string {
    if r.GetUser? || Public(r) then AuthService
    else if r.AddStudent? || r.ListStudents? || r.DeleteStudent? || r.UpdateStudent? || r.PatchStudent? then StudentService
    else CourseService
  }

  /** The method and address of each route's backend call. A route reads
      with GET exactly when the gateway's own route is a GET. */
  function Target(r: Route): (t: (Method, string))
    ensures t.0 == Get <==> r.GetUser? || r.ListStudents? || r.ListCourses? || r.CourseStudents?
  {
    match r
    case GetUser => (Get, AuthService + "/")
    case CreateUser => (Post, AuthService + "/auth/create")
    case Login => (Post, AuthService + "/auth/login")
    case AuthCreate => (Post, AuthService + "/auth/create")
    case AddStudent => (Post, StudentService + "/students")
    case ListStudents => (Get, StudentService + "/students")
    case DeleteStudent(id) => (Delete, StudentItem(IdSegment(id)))
    case UpdateStudent(id) => (Put, StudentItem(IdSegment(id)))
    case PatchStudent(id) => (Patch, StudentItem(IdSegment(id)))
    case CreateCourse => (Post, CourseService + "/courses")
    case ListCourses => (Get, CourseService + "/courses")
    case EnrollInCourse(id) => (Post, CourseItem(IdSegment(id), "/enroll"))
    case CourseStudents(id) => (Get, CourseItem(IdSegment(id), "/students"))
    case DeleteCourse(id) => (Delete, CourseItem(IdSegment(id), ""))
  }

  /** The backend call for a request: POST, PUT and PATCH carry the inbound
      body unchanged; the header is attached only where the handler does. */
  function CallFor(req: Request): Call {
    var (verb, url) := Target(req.route);
    var body := if verb == Post || verb == Put || verb == Patch then Some(req.body) else None;
    Call(verb, url, body, if ForwardsAuthorization(req.route) then req.authorization else None)
  }

  /** The failure envelope `{error, message}`. */
  function Envelope(r: Route, message: Json): (e: Json)
    ensures Field(e, "error") == Some(JStr(Label(r))) && Field(e, "message") == Some(message)
  {
    var fields := [("error", JStr(Label(r))), ("message", message)];
    assert fields[..1] == [fields[0]];
    JObj(fields)
  }

  /** The catch block shared by all routes: the backend's status if it sent a
      response (`|| 500` also replaces a status of 0), else 500; the backend's
      data if truthy, else the error's message. */
  function Failure(r: Route, outcome: Outcome): (f: (int, Json))
    requires !outcome.Ok?
    ensures f.0 == if outcome.HttpError? && outcome.status != 0 then outcome.status else 500
    ensures Field(f.1, "error") == Some(JStr(Label(r)))
    ensures Field(f.1, "message")
              == Some(if outcome.HttpError? && Truthy(Some(outcome.data)) then outcome.data else JStr(outcome.message))
  {
    match outcome
    case HttpError(status, data, message) =>
      (if status != 0 then status else 500, Envelope(r, if Truthy(Some(data)) then data else JStr(message)))
    case Transport(message) => (500, Envelope(r, JStr(message)))
  }

  /** The success status each handler sends, whatever the backend's status. */
  function SuccessStatus(r: Route): int {
    if r.CreateUser? || r.AuthCreate? then 201 else 200
  }

  /** The routes whose success `message` is a fixed text; they pass the
      backend data on under `data` instead. */
  predicate FixedText(r: Route) {
    r.GetUser? || r.CreateUser? || r.Login? || r.AuthCreate? || r.AddStudent? || r.ListStudents?
  }

  /** The success body each handler sends for backend data `data`. */
  function SuccessBody(r: Route, data: Json, user: Option<Claims>): Json {
    JObj([("message", SuccessMessage(r, data))] + SuccessExtras(r, data, user))
  }

  /** The `message` of each route's success body: a fixed text, or the
      backend data itself on the routes that send only `{message: data}`. */
  function SuccessMessage(r: Route, data: Json): Json {
    match r
    case GetUser => JStr("Fetched from auth service")
    case CreateUser => JStr("User created successfully (via gateway)")
    case Login => JStr("Login successful (via gateway)")
    case AuthCreate => JStr("User created successfully (via gateway)")
    case AddStudent => JStr("Student added successfully.")
    case ListStudents => JStr("Students list ready")
    case _ => data
  }

  /** The members after `message`: the backend data under `data` where the
      route sends it, and on GET /user the caller's claims under `user`. */
  function SuccessExtras(r: Route, data: Json, user: Option<Claims>): seq<(string, Json)> {
    if r.GetUser? then [("data", data)] + (if user.Some? then [("user", ClaimsJson(user.value))] else [])
    else if FixedText(r) then [("data", data)]
    else []
  }

  /** Turns the backend outcome into the gateway's reply. GET /courses reads
      `data.length` first, which can throw and then takes the catch path. */
  function Translate(r: Route, outcome: Outcome, user: Option<Claims>): (t: (int, Json))
    ensures !outcome.Ok? ==> t == Failure(r, outcome)
    ensures outcome.Ok? ==>
      t.0 == if r.ListCourses? && outcome.data.JNull? then 500 else SuccessStatus(r)
    ensures outcome.Ok? && r.ListCourses? && outcome.data.JNull? ==>
      Field(t.1, "message") == Some(JStr(NullLengthMessage))
    ensures outcome.Ok? && r.ListCourses? && LengthIsZero(outcome.data) == Some(true) ==>
      t.1 == JObj([("message", JStr("Courses empty"))])
    ensures outcome.Ok? && r.ListCourses? && LengthIsZero(outcome.data) == Some(false) ==>
      t.1 == JObj([("message", outcome.data)])
    ensures outcome.Ok? && !r.ListCourses? && !FixedText(r) ==>
      t.1 == JObj([("message", outcome.data)])
    ensures outcome.Ok? && FixedText(r) ==>
      && Field(t.1, "data") == Some(outcome.data)
      && Field(t.1, "message").Some? && Field(t.1, "message").value.JStr?
    ensures outcome.Ok? && r.GetUser? ==>
      Field(t.1, "user") == if user.Some? then Some(ClaimsJson(user.value)) else None
  {
    match outcome
    case Ok(_, data) =>
      SuccessFields(r, data, user);
      if r.ListCourses? then
        match LengthIsZero(data)
        case None => (500, Envelope(r, JStr(NullLengthMessage)))
        case Some(empty) =>
          (200, if empty then JObj([("message", JStr("Courses empty"))]) else JObj([("message", data)]))
      else (SuccessStatus(r), SuccessBody(r, data, user))
    case _ => Failure(r, outcome)
  }

  /** The members of a success body: a fixed text and the data on the
      fixed-text routes, the data alone as `message` on the others, and the
      claims under `user` on GET /user. */
  lemma SuccessFields(r: Route, data: Json, user: Option<Claims>)
    ensures !FixedText(r) ==> SuccessBody(r, data, user) == JObj([("message", data)])
    ensures FixedText(r) ==>
      && Field(SuccessBody(r, data, user), "data") == Some(data)
      && Field(SuccessBody(r, data, user), "message").Some?
      && Field(SuccessBody(r, data, user), "message").value.JStr?
    ensures r.GetUser? ==>
      Field(SuccessBody(r, data, user), "user") == if user.Some? then Some(ClaimsJson(user.value)) else None
  {
    if FixedText(r) {
      var m := SuccessMessage(r, data);
      assert m.JStr?;
      if r.GetUser? && user.Some? {
        var u := ClaimsJson(user.value);
        assert SuccessBody(r, data, user) == JObj([("message", m), ("data", data), ("user", u)]);
        ThreeFields(m, data, u);
      } else {
        assert SuccessBody(r, data, user) == JObj([("message", m), ("data", data)]);
        TwoFields(m, data);
      }
    } else {
      assert SuccessBody(r, data, user) == JObj([("message", data)] + []);
    }
  }

  /** Member lookup in a `{message, data}` body. */
  lemma TwoFields(m: Json, data: Json)
    ensures Field(JObj([("message", m), ("data", data)]), "data") == Some(data)
    ensures Field(JObj([("message", m), ("data", data)]), "message") == Some(m)
    ensures Field(JObj([("message", m), ("data", data)]), "user") == None
  {
    var fields := [("message", m), ("data", data)];
    assert fields[..1] == [fields[0]];
  }

  /** Member lookup in a `{message, data, user}` body. */
  lemma ThreeFields(m: Json, data: Json, user: Json)
    ensures Field(JObj([("message", m), ("data", data), ("user", user)]), "data") == Some(data)
    ensures Field(JObj([("message", m), ("data", data), ("user", user)]), "message") == Some(m)
    ensures Field(JObj([("message", m), ("data", data), ("user", user)]), "user") == Some(user)
  {
    var fields := [("message", m), ("data", data), ("user", user)];
    assert fields[..2] == [("message", m), ("data", data)];
    TwoFields(m, data);
  }

  /** Forward the request and translate the outcome. */
  function Forward(req: Request, user: Option<Claims>, backend: Backend): Exchange {
    var call := CallFor(req);
    var (status, json) := Translate(req.route, backend(call), user);
    Exchange(Some(call), status, Body(json))
  }

  /** One inbound request, end to end. */
  function Handle(req: Request, env: Option<string>, verify: Verifier, backend: Backend): (r: Exchange)
    ensures !Public(req.route) && !Present(req.authorization) ==>
      r == Exchange(None, 401, Text(NoTokenText))
    ensures !Public(req.route) && Present(req.authorization)
            && verify(TokenOf(req.authorization), Secret(env)).Rejected? ==>
      r == Exchange(None, 403, Text(ForbiddenText))
    ensures r.call.Some? <==>
      Public(req.route) || (Present(req.authorization) && verify(TokenOf(req.authorization), Secret(env)).Verified?)
    ensures r.call.Some? ==> r.call.value.url == Target(req.route).1 && r.payload.Body?
    ensures r.call.Some? ==>
      var user := if Public(req.route) then None else Some(verify(TokenOf(req.authorization), Secret(env)).claims);
      var t := Translate(req.route, backend(r.call.value), user);
      r.status == t.0 && r.payload == Body(t.1)
  {
    if Public(req.route) then Forward(req, None, backend)
    else if !Present(req.authorization) then Exchange(None, 401, Text(NoTokenText))
    else
      match verify(TokenOf(req.authorization), Secret(env))
      case Rejected(_) => Exchange(None, 403, Text(ForbiddenText))
      case Verified(claims) => Forward(req, Some(claims), backend)
  }

  // ----------------------------------------------------------------- lemmas

  /** A sent but unverifiable credential is answered 403, never 401, and a
      missing one 401, never 403; neither reaches a backend. */
  lemma MissingVersusInvalid(req: Request, env: Option<string>, verify: Verifier, backend: Backend)
    requires !Public(req.route)
    ensures var r := Handle(req, env, verify, backend);
            r.call.None? ==> ((r.status == 401 <==> !Present(req.authorization))
                              && (r.status == 403 <==> Present(req.authorization)))
  {
  }

  /** The routes for creating an account and logging in never consult the
      verifier and ignore the Authorization header altogether. */
  lemma PublicRoutesSkipVerification(req: Request, header: Option<string>, env: Option<string>,
                                     v1: Verifier, v2: Verifier, backend: Backend)
    requires Public(req.route)
    ensures Handle(req, env, v1, backend) == Handle(req.(authorization := header), env, v2, backend)
    ensures Handle(req, env, v1, backend).call.value.authorization == None
  {
  }

  /** On a verified protected route other than GET /user, the backend receives
      the inbound Authorization header unchanged; it re-verifies the token
      itself. */
  lemma ForwardsHeaderVerbatim(req: Request, env: Option<string>, verify: Verifier, backend: Backend)
    requires ForwardsAuthorization(req.route)
    requires Present(req.authorization)
    requires verify(TokenOf(req.authorization), Secret(env)).Verified?
    ensures Handle(req, env, verify, backend).call.Some?
    ensures Handle(req, env, verify, backend).call.value.authorization == req.authorization
    ensures TokenOf(Handle(req, env, verify, backend).call.value.authorization) == TokenOf(req.authorization)
  {
  }

  /** Writes carry the inbound body unchanged; reads and deletes carry none. */
  lemma ForwardsBodyVerbatim(req: Request, env: Option<string>, verify: Verifier, backend: Backend)
    requires Handle(req, env, verify, backend).call.Some?
    ensures var call := Handle(req, env, verify, backend).call.value;
            (call.verb == Post || call.verb == Put || call.verb == Patch) <==> call.body == Some(req.body)
  {
  }

  /** Every failure has the same shape on every route: the backend's status
      (500 without one), and `{error: label, message}` with the backend's data
      when truthy, else the error's message. */
  lemma FailureShape(req: Request, env: Option<string>, verify: Verifier, backend: Backend)
    requires Handle(req, env, verify, backend).call.Some?
    requires !backend(Handle(req, env, verify, backend).call.value).Ok?
    ensures var r := Handle(req, env, verify, backend);
            var outcome := backend(r.call.value);
            var message := match outcome
                           case HttpError(_, data, m) => if Truthy(Some(data)) then data else JStr(m)
                           case Transport(m) => JStr(m);
            && r.status == (if outcome.HttpError? && outcome.status != 0 then outcome.status else 500)
            && r.payload == Body(JObj([("error", JStr(Label(req.route))), ("message", message)]))
  {
  }

  /** The success status is a constant of the route: two backend successes
      with any statuses and data give the same gateway status. So POST
      /students answers 200 although the student service answers 201. */
  lemma SuccessStatusFixed(req: Request, env: Option<string>, verify: Verifier, b1: Backend, b2: Backend)
    requires Handle(req, env, verify, b1).call.Some?
    requires b1(CallFor(req)).Ok? && b2(CallFor(req)).Ok?
    requires !req.route.ListCourses?
    ensures Handle(req, env, verify, b1).status == Handle(req, env, verify, b2).status == SuccessStatus(req.route)
  {
  }

  /** GET /courses answers "Courses empty" exactly for an empty list, and the
      list itself otherwise. */
  lemma CoursesEmpty(req: Request, env: Option<string>, verify: Verifier, backend: Backend, items: seq<Json>)
    requires req.route.ListCourses?
    requires Handle(req, env, verify, backend).call.Some?
    requires backend(CallFor(req)).Ok? && backend(CallFor(req)).data == JArr(items)
    ensures Handle(req, env, verify, backend).status == 200
    ensures |items| == 0 <==>
      Handle(req, env, verify, backend).payload == Body(JObj([("message", JStr("Courses empty"))]))
    ensures |items| > 0 ==>
      Handle(req, env, verify, backend).payload == Body(JObj([("message", JArr(items))]))
  {
  }

  /** GET /courses reads `data.length` before replying, so a `null` list from
      the course service throws and takes the failure path: 500 with the
      thrown error's message. */
  lemma NullCourses(req: Request, env: Option<string>, verify: Verifier, backend: Backend)
    requires req.route.ListCourses?
    requires Handle(req, env, verify, backend).call.Some?
    requires backend(CallFor(req)).Ok? && backend(CallFor(req)).data == JNull
    ensures Handle(req, env, verify, backend).status == 500
    ensures Handle(req, env, verify, backend).payload
              == Body(JObj([("error", JStr("Error fetching courses")), ("message", JStr(NullLengthMessage))]))
  {
  }

  /** A body whose first member is `message` has that member. */
  lemma MessageFirst(message: Json, rest: seq<(string, Json)>)
    ensures Field(JObj([("message", message)] + rest), "message").Some?
  {
    var fields := [("message", message)] + rest;
    assert fields[0].0 == "message";
  }

  /** Every success body leads with its `message` member. */
  lemma SuccessBodyShaped(r: Route, data: Json, user: Option<Claims>)
    ensures SuccessBody(r, data, user).JObj?
    ensures Field(SuccessBody(r, data, user), "message").Some?
  {
    MessageFirst(SuccessMessage(r, data), SuccessExtras(r, data, user));
  }

  /** Every translated reply is a JSON object with a `message` member. */
  lemma TranslateShaped(r: Route, outcome: Outcome, user: Option<Claims>)
    ensures Translate(r, outcome, user).1.JObj?
    ensures Field(Translate(r, outcome, user).1, "message").Some?
  {
    match outcome
    case Ok(_, data) =>
      if r.ListCourses? {
        MessageFirst(JStr("Courses empty"), []);
        MessageFirst(data, []);
      } else {
        SuccessBodyShaped(r, data, user);
      }
    case _ =>
  }

  /** Every reply that involved a backend is a JSON object with a `message`
      member: the success shape, or the `{error, message}` envelope. */
  lemma EveryReplyShaped(req: Request, env: Option<string>, verify: Verifier, backend: Backend)
    requires Handle(req, env, verify, backend).call.Some?
    ensures var r := Handle(req, env, verify, backend);
            r.payload.Body? && r.payload.json.JObj? && Field(r.payload.json, "message").Some?
  {
    var user := if Public(req.route) then None else Some(verify(TokenOf(req.authorization), Secret(env)).claims);
    TranslateShaped(req.route, backend(CallFor(req)), user);
  }

  /** The `:id` segment sent to the backend is `parseInt` of the inbound
      parameter, and the backend's own `parseInt` of that segment gives the
      same value back (NaN travels as "NaN"). The segment holds no slash, so
      the backend route matches it as one parameter. */
  lemma IdSubstitution(id: string)
    ensures ParseInt(IdSegment(id)) == ParseInt(id)
    ensures '/' !in IdSegment(id)
    ensures IdSegment(id) == "NaN" <==> ParseInt(id).NaN?
  {
    SpliceRoundTrip(ParseInt(id));
    SpliceText(ParseInt(id));
  }

  /** `${parseInt(req.params.id)}` as the language performs it, exponent
      notation included. */
  function IdSegmentAsWritten(id: string): string {
    SpliceAsWritten(ParseInt(id))
  }

  /** As written, the id "1" followed by 21 or more zeros reaches the backend
      as a segment the backend parses as 1, while the digit-preserving
      `IdSegment` carries the id itself. In the language this holds up to
      10^308; beyond the largest double the segment is "Infinity". */
  lemma ExponentIdExample(k: nat)
    requires k >= 21
    ensures var id := "1" + Zeros(k);
            && ParseInt(id) == Num(Pow10(k))
            && ParseInt(IdSegmentAsWritten(id)) == Num(1)
            && ParseInt(IdSegment(id)) == Num(Pow10(k))
  {
    var id := "1" + Zeros(k);
    DigitsOfPower(k);
    DecimalRoundTrip(Pow10(k));
    assert Decimal(Pow10(k)) == id;
    ExponentSplice(k);
    IdSubstitution(id);
  }

  /** The spliced text of a parsed value: "NaN" for NaN, and otherwise only a
      minus sign and digits. */
  lemma SpliceText(p: Parsed)
    ensures '/' !in Splice(p)
    ensures Splice(p) == "NaN" <==> p.NaN?
  {
    if p.Num? {
      var text := Decimal(p.value);
      DecimalChars(p.value);
      assert text[0] != 'N';
      forall i | 0 <= i < |text|
        ensures text[i] != '/'
      {
      }
    }
  }

  /** The route `r` with its `:id` parameter replaced by `id`. */
  function WithId(r: Route, id: string): Route
    requires IdOf(r).Some?
  {
    match r
    case DeleteStudent(_) => DeleteStudent(id)
    case UpdateStudent(_) => UpdateStudent(id)
    case PatchStudent(_) => PatchStudent(id)
    case EnrollInCourse(_) => EnrollInCourse(id)
    case CourseStudents(_) => CourseStudents(id)
    case DeleteCourse(_) => DeleteCourse(id)
  }

  /** A string starts with its first part. */
  lemma StartsWith(a: string, b: string)
    ensures |a| <= |a + b| && (a + b)[..|a|] == a
  {
  }

  /** Every backend address lies under the base address of the service that
      owns the route. */
  lemma TargetOwner(r: Route)
    ensures |Owner(r)| <= |Target(r).1| && Target(r).1[..|Owner(r)|] == Owner(r)
  {
    match r
    case GetUser => StartsWith(AuthService, "/");
    case CreateUser => StartsWith(AuthService, "/auth/create");
    case Login => StartsWith(AuthService, "/auth/login");
    case AuthCreate => StartsWith(AuthService, "/auth/create");
    case AddStudent => StartsWith(StudentService, "/students");
    case ListStudents => StartsWith(StudentService, "/students");
    case CreateCourse => StartsWith(CourseService, "/courses");
    case ListCourses => StartsWith(CourseService, "/courses");
    case DeleteStudent(id) => StartsWith(StudentService, "/students/" + IdSegment(id));
    case UpdateStudent(id) => StartsWith(StudentService, "/students/" + IdSegment(id));
    case PatchStudent(id) => StartsWith(StudentService, "/students/" + IdSegment(id));
    case EnrollInCourse(id) => StartsWith(CourseService, "/courses/" + IdSegment(id) + "/enroll");
    case CourseStudents(id) => StartsWith(CourseService, "/courses/" + IdSegment(id) + "/students");
    case DeleteCourse(id) => StartsWith(CourseService, "/courses/" + IdSegment(id));
  }

  /** Equal text around two segments forces the segments to be equal. */
  lemma Cancel(prefix: string, x: string, y: string, suffix: string)
    requires prefix + x + suffix == prefix + y + suffix
    ensures x == y
  {
    var u := prefix + x + suffix;
    assert |x| == |y|;
    assert x == u[|prefix|..|prefix| + |x|];
    assert y == (prefix + y + suffix)[|prefix|..|prefix| + |y|];
  }

  /** An id route's backend address depends on the `:id` parameter exactly
      through its `parseInt` value: "42", " 42" and "42abc" reach the same
      address, and parameters with different values never do. */
  lemma TargetByParsedId(r: Route, a: string, b: string)
    requires IdOf(r).Some?
    ensures Target(WithId(r, a)).1 == Target(WithId(r, b)).1 <==> ParseInt(a) == ParseInt(b)
  {
    SpliceRoundTrip(ParseInt(a));
    SpliceRoundTrip(ParseInt(b));
    var (x, y) := (IdSegment(a), IdSegment(b));
    if Target(WithId(r, a)).1 == Target(WithId(r, b)).1 {
      if r.DeleteStudent? || r.UpdateStudent? || r.PatchStudent? {
        assert StudentItem(x) == StudentItem(y);
        Cancel(StudentService + "/students/", x, y, "");
      } else {
        var rest := if r.EnrollInCourse? then "/enroll" else if r.CourseStudents? then "/students" else "";
        assert CourseItem(x, rest) == CourseItem(y, rest);
        Cancel(CourseService + "/courses/", x, y, rest);
      }
    }
  }
}

=== FILE: http.dfy ===
/** The reply every backend handler produces with `res.status(s).json(body)`. */
module Http {
  import opened JsValue

  datatype Reply = Reply(status: int, body: Json)

  /** `res.status(status).json({ error })`. */
  function ErrorReply(status: int, error: string): Reply {
    Reply(status, JObj([("error", JStr(error))]))
  }

  /** `res.status(status).json({ message })` with a string message. */
  function MessageReply(status: int, message: string): Reply {
    Reply(status, JObj([("message", JStr(message))]))
  }

  /** The catch block of every handler: 500 with the thrown error's message. */
  function InternalError(message: string): Reply {
    Reply(500, JObj([("error", JStr("Internal server error")), ("message", JStr(message))]))
  }
}

=== FILE: js_array.dfy ===
/** The array methods the stores use: `findIndex` (and `find`, which returns the
    element at the same position) and `filter`. */
module JsArray {
  import opened Wrappers

  /** `xs.findIndex(p)`: the first position whose element satisfies `p`, or
      `None` where JavaScript returns -1. */
  function FindIndex<T>(xs: seq<T>, p: T -> bool): (r: Option<nat>)
    ensures r.None? <==> forall i :: 0 <= i < |xs| ==> !p(xs[i])
    ensures r.Some? ==> r.value < |xs| && p(xs[r.value])
                        && forall i :: 0 <= i < r.value ==> !p(xs[i])
  {
    if |xs| == 0 then None
    else if p(xs[0]) then Some(0)
    else
      match FindIndex(xs[1..], p)
      case None => None
      case Some(k) => Some(k + 1)
  }

  /** `xs.filter(p)`: the elements satisfying `p`, in their original order. */
  function Filter<T>(xs: seq<T>, p: T -> bool): (r: seq<T>)
    ensures |r| <= |xs|
    ensures forall i :: 0 <= i < |r| ==> r[i] in xs && p(r[i])
    ensures forall i :: 0 <= i < |xs| && p(xs[i]) ==> xs[i] in r
  {
    if |xs| == 0 then []
    else
      var rest := Filter(xs[..|xs| - 1], p);
      if p(xs[|xs| - 1]) then rest + [xs[|xs| - 1]] else rest
  }

  /** Filtering distributes over concatenation: `filter` keeps the relative
      order of the elements it keeps. */
  lemma {:induction false} FilterAppend<T>(a: seq<T>, b: seq<T>, p: T -> bool)
    ensures Filter(a + b, p) == Filter(a, p) + Filter(b, p)
  {
    if |b| > 0 {
      var init := b[..|b| - 1];
      assert (a + b)[..|a + b| - 1] == a + init;
      FilterAppend(a, init, p);
    } else {
      assert a + b == a;
    }
  }

  /** Filtering a single element keeps it exactly when it satisfies `p`;
      with FilterAppend this pins `filter` down completely: order and
      multiplicity are kept. */
  lemma FilterOne<T>(x: T, p: T -> bool)
    ensures Filter([x], p) == if p(x) then [x] else []
  {
    assert [x][..0] == [];
  }

  /** Removing the element at position `k` with `splice(k, 1)` keeps the order
      of the others: the elements before `k` keep their positions and the ones
      after shift down by one. */
  function RemoveAt<T>(xs: seq<T>, k: nat): (r: seq<T>)
    requires k < |xs|
    ensures |r| == |xs| - 1
    ensures forall i :: 0 <= i < k ==> r[i] == xs[i]
    ensures forall i :: k <= i < |r| ==> r[i] == xs[i + 1]
  {
    xs[..k] + xs[k + 1..]
  }
}

=== FILE: js_number.dfy ===
/** The two number conversions the services rely on: the global `parseInt`
    (section 19.2.5 of ECMA-262, called without a radix) and the conversion of
    an integral Number to its decimal string (section 6.1.6.1.20 of ECMA-262),
    which is what a template literal such as `${id}` performs.

    Numbers are modelled as unbounded integers: the rounding of very long digit
    strings to a double, and the overflow to Infinity beyond the largest
    double, are not modelled. The conversion, exponent notation from 1e21 on
    included, is NumberText; `String()` of a JSON number uses it. For the id
    the gateway splices into a backend address, `Splice` is the
    digit-preserving conversion, and SpliceAsWritten the one the language
    performs. Negative zero is not distinguished from zero; its
    string is "0" and it is `===` to 0, so no observable result of these services
    depends on the difference. */
module JsNumber {

  /** What `parseInt` returns: NaN, or an integral Number. */
  datatype Parsed = NaN | Num(value: int)

  /** StrWhiteSpaceChar: the white space and line terminators `parseInt` skips. */
  predicate IsWhiteSpace(c: char) {
    var n := c as int;
    || n == 0x09 || n == 0x0A || n == 0x0B || n == 0x0C || n == 0x0D
    || n == 0x20 || n == 0xA0 || n == 0x1680
    || (0x2000 <= n <= 0x200A)
    || n == 0x2028 || n == 0x2029 || n == 0x202F || n == 0x205F
    || n == 0x3000 || n == 0xFEFF
  }

  /** Drops the leading white space of `s`. */
  function TrimStart(s: string): (r: string)
    ensures |r| <= |s|
    ensures r == [] || !IsWhiteSpace(r[0])
  {
    if |s| > 0 && IsWhiteSpace(s[0]) then TrimStart(s[1..]) else s
  }

  /** TrimStart removes a prefix made only of white space. */
  lemma {:induction false} TrimStartSuffix(s: string)
    ensures TrimStart(s) == s[|s| - |TrimStart(s)|..]
    ensures forall i :: 0 <= i < |s| - |TrimStart(s)| ==> IsWhiteSpace(s[i])
  {
    if |s| > 0 && IsWhiteSpace(s[0]) {
      TrimStartSuffix(s[1..]);
      assert s[1..][|s| - 1 - |TrimStart(s)|..] == s[|s| - |TrimStart(s)|..];
      assert forall i :: 1 <= i < |s| - |TrimStart(s)| ==> s[i] == s[1..][i - 1];
    }
  }

  /** The value of a character read as a digit of radix up to 36; 36 for a
      character that is a digit of no radix. */
  function DigitValue(c: char): nat {
    if '0' <= c <= '9' then c as int - '0' as int
    else if 'a' <= c <= 'z' then c as int - 'a' as int + 10
    else if 'A' <= c <= 'Z' then c as int - 'A' as int + 10
    else 36
  }

  predicate IsDigit(c: char, radix: nat) {
    DigitValue(c) < radix
  }

  /** The length of the longest prefix of `s` made of digits of `radix`. */
  function DigitRun(s: string, radix: nat): (n: nat)
    ensures n <= |s|
    ensures n < |s| ==> !IsDigit(s[n], radix)
  {
    if |s| > 0 && IsDigit(s[0], radix) then 1 + DigitRun(s[1..], radix) else 0
  }

  /** Every character of the run is a digit of the radix, so the run is the
      longest digit prefix. */
  lemma {:induction false} DigitRunDigits(s: string, radix: nat)
    ensures forall i :: 0 <= i < DigitRun(s, radix) ==> IsDigit(s[i], radix)
  {
    if |s| > 0 && IsDigit(s[0], radix) {
      DigitRunDigits(s[1..], radix);
      assert forall i :: 1 <= i < DigitRun(s, radix) ==> s[i] == s[1..][i - 1];
    }
  }

  /** The mathematical value of a digit string, most significant digit first. */
  function Value(digits: string, radix: nat): nat {
    if |digits| == 0 then 0
    else Value(digits[..|digits| - 1], radix) * radix + DigitValue(digits[|digits| - 1])
  }

  /** `parseInt(s)` with no radix argument: skip white space, read an optional
      sign, then the magnitude. */
  function ParseInt(s: string): Parsed {
    ParseSigned(TrimStart(s))
  }

  function ParseSigned(t: string): Parsed {
    if |t| > 0 && t[0] == '-' then Negate(ParseMagnitude(t[1..]))
    else if |t| > 0 && t[0] == '+' then ParseMagnitude(t[1..])
    else ParseMagnitude(t)
  }

  function Negate(p: Parsed): Parsed {
    match p
    case NaN => NaN
    case Num(v) => Num(-v)
  }

  /** After the sign: radix 16 behind a "0x" or "0X" prefix, radix 10 otherwise. */
  function ParseMagnitude(u: string): Parsed {
    if |u| >= 2 && u[0] == '0' && (u[1] == 'x' || u[1] == 'X') then ParseRun(u[2..], 16)
    else ParseRun(u, 10)
  }

  /** The longest run of digits at the start of `w`; no digits at all gives NaN. */
  function ParseRun(w: string, radix: nat): Parsed {
    var n := DigitRun(w, radix);
    if n == 0 then NaN else Num(Value(w[..n], radix))
  }

  function DigitChar(d: nat): (c: char)
    requires d < 10
    ensures '0' <= c <= '9' && DigitValue(c) == d
  {
    ('0' as int + d) as char
  }

  /** The decimal digits of a natural number, without leading zeros. */
  function Digits(n: nat): (s: string)
    ensures |s| >= 1
    ensures forall i :: 0 <= i < |s| ==> '0' <= s[i] <= '9'
    ensures s[0] == '0' ==> n == 0
  {
    if n < 10 then [DigitChar(n)] else Digits(n / 10) + [DigitChar(n % 10)]
  }

  /** The string of an integral Number: a minus sign for negatives, then digits. */
  function Decimal(n: int): string {
    if n < 0 then "-" + Digits(-n) else Digits(n)
  }

  /** `parseInt` skips a leading white space character. */
  lemma SkipSpace(s: string)
    requires |s| > 0 && IsWhiteSpace(s[0])
    ensures ParseInt(s) == ParseInt(s[1..])
  {
  }

  /** A leading minus sign negates the magnitude that follows it. */
  lemma LeadingMinus(t: string)
    ensures ParseInt("-" + t) == Negate(ParseMagnitude(t))
  {
    TrimStartIdle("-" + t);
    assert ("-" + t)[1..] == t;
  }

  /** The decimal text of an integer holds only a minus sign and digits. */
  lemma DecimalChars(n: int)
    ensures forall i :: 0 <= i < |Decimal(n)| ==> Decimal(n)[i] == '-' || '0' <= Decimal(n)[i] <= '9'
  {
    if n < 0 {
      var d := Digits(-n);
      assert forall i :: 1 <= i < |Decimal(n)| ==> Decimal(n)[i] == d[i - 1];
    }
  }

  /** What a template literal splices in for a `parseInt` result. */
  function Splice(p: Parsed): string {
    match p
    case NaN => "NaN"
    case Num(v) => Decimal(v)
  }

  lemma {:induction false} ValueOfDigits(n: nat)
    ensures Value(Digits(n), 10) == n
  {
    if n >= 10 {
      var s := Digits(n);
      assert s[..|s| - 1] == Digits(n / 10);
      ValueOfDigits(n / 10);
    }
  }

  /** A string that starts with no white space is left alone by TrimStart. */
  lemma TrimStartIdle(s: string)
    requires |s| > 0 && !IsWhiteSpace(s[0])
    ensures TrimStart(s) == s
  {
  }

  /** The digits of a natural number, read after the sign, give that number:
      they never look like a "0x" prefix. */
  lemma MagnitudeOfDigits(m: nat)
    ensures ParseMagnitude(Digits(m)) == Num(m)
  {
    var d := Digits(m);
    assert !(|d| >= 2 && d[0] == '0');
    assert ParseMagnitude(d) == ParseRun(d, 10);
    RunOfDigits(d);
    ValueOfDigits(m);
  }

  /** The decimal string of a natural number parses to that number. */
  lemma NaturalRoundTrip(n: int)
    requires n >= 0
    ensures ParseInt(Decimal(n)) == Num(n)
  {
    var d := Decimal(n);
    assert d == Digits(n);
    TrimStartIdle(d);
    assert ParseSigned(d) == ParseMagnitude(d);
    MagnitudeOfDigits(n);
  }

  /** A minus sign followed by the digits of a natural number parses to its
      negation. */
  lemma NegativeDigits(m: nat)
    ensures ParseInt("-" + Digits(m)) == Num(-(m as int))
  {
    LeadingMinus(Digits(m));
    MagnitudeOfDigits(m);
  }

  /** The decimal string of a negative number parses back to the number. */
  lemma NegativeRoundTrip(n: int)
    requires n < 0
    ensures ParseInt(Decimal(n)) == Num(n)
  {
    assert Decimal(n) == "-" + Digits(-n);
    NegativeDigits(-n);
  }

  /** Reading back the decimal string of an integer gives that integer. */
  lemma DecimalRoundTrip(n: int)
    ensures ParseInt(Decimal(n)) == Num(n)
  {
    if n < 0 {
      NegativeRoundTrip(n);
    } else {
      NaturalRoundTrip(n);
    }
  }

  /** White space in front of any text does not change what it parses to. */
  lemma {:induction false} SkipPadding(pad: string, t: string)
    requires forall i :: 0 <= i < |pad| ==> IsWhiteSpace(pad[i])
    ensures ParseInt(pad + t) == ParseInt(t)
  {
    if pad == [] {
      assert pad + t == t;
    } else {
      SkipSpace(pad + t);
      assert (pad + t)[1..] == pad[1..] + t;
      SkipPadding(pad[1..], t);
    }
  }

  /** The gateway splices `parseInt(id)` into a backend path and the backend
      calls `parseInt` on that path segment again: both see the same value. */
  lemma SpliceRoundTrip(p: Parsed)
    ensures ParseInt(Splice(p)) == p
  {
    match p
    case NaN =>
      ParseNonDigit("NaN");
    case Num(v) =>
      DecimalRoundTrip(v);
  }

  /** A canonical decimal string is the Decimal of its own parse. */
  lemma {:induction false} DigitsOfValue(s: string)
    requires |s| >= 1
    requires forall i :: 0 <= i < |s| ==> '0' <= s[i] <= '9'
    requires s[0] == '0' ==> |s| == 1
    ensures Digits(Value(s, 10)) == s
  {
    var init := s[..|s| - 1];
    var last := s[|s| - 1];
    if |s| == 1 {
      assert Value(s, 10) == DigitValue(last);
    } else {
      DigitsOfValue(init);
      ValueOfDigits(Value(init, 10));
      assert Value(init, 10) >= 1;
      var n := Value(s, 10);
      assert n == Value(init, 10) * 10 + DigitValue(last);
      assert n / 10 == Value(init, 10) && n % 10 == DigitValue(last);
      assert DigitChar(DigitValue(last)) == last;
    }
  }

  /** A string of digits only is read whole. */
  lemma RunOfDigits(d: string)
    requires forall i :: 0 <= i < |d| ==> '0' <= d[i] <= '9'
    requires |d| >= 1
    ensures ParseRun(d, 10) == Num(Value(d, 10))
  {
    assert DigitRun(d, 10) == |d|;
    assert d[..|d|] == d;
  }

  lemma ParseDecimalExample()
    ensures ParseInt("42") == Num(42)
  {
    TrimStartIdle("42");
    RunOfDigits("42");
  }

  lemma ParseSignedExample()
    ensures ParseInt("  -7") == Num(-7)
  {
    assert "  " + "-7" == "  -7";
    SkipPadding("  ", "-7");
    assert Decimal(-7) == "-7";
    NegativeRoundTrip(-7);
  }

  lemma ParseHexExample()
    ensures ParseInt("0x1F") == Num(31)
  {
    TrimStartIdle("0x1F");
    assert ParseSigned("0x1F") == ParseMagnitude("0x1F");
    assert "0x1F"[2..] == "1F";
    assert DigitRun("F", 16) == 1;
    assert DigitRun("1F", 16) == 2;
    assert "1F"[..2] == "1F" && "1F"[..1] == "1";
    assert Value("1F", 16) == 31;
  }

  lemma ParsePrefixExample()
    ensures ParseInt("12abc") == Num(12)
  {
    TrimStartIdle("12abc");
    assert ParseSigned("12abc") == ParseRun("12abc", 10);
    assert "12abc"[1..] == "2abc" && "2abc"[1..] == "abc";
    assert DigitRun("abc", 10) == 0;
    assert DigitRun("12abc", 10) == 2;
    assert "12abc"[..2] == "12" && "12"[..1] == "1";
    assert Value("12", 10) == 12;
    assert ParseRun("12abc", 10) == Num(12);
  }

  /** Text that starts with something other than white space, a sign or a
      decimal digit does not parse. */
  lemma ParseNonDigit(s: string)
    requires |s| > 0 && !IsWhiteSpace(s[0]) && s[0] != '-' && s[0] != '+' && !('0' <= s[0] <= '9')
    ensures ParseInt(s) == NaN
  {
    TrimStartIdle(s);
    assert ParseSigned(s) == ParseRun(s, 10);
    assert DigitRun(s, 10) == 0;
  }

  lemma ParseWordExample()
    ensures ParseInt("abc") == NaN
  {
    ParseNonDigit("abc");
  }

  lemma ParseEmptyExample()
    ensures ParseInt("") == NaN
    ensures ParseInt("-") == NaN
  {
    assert ParseMagnitude("") == ParseRun("", 10);
    assert "-" + "" == "-";
    LeadingMinus("");
  }

  // ------------------------------------------------------ exponent notation

  function Pow10(k: nat): nat {
    if k == 0 then 1 else 10 * Pow10(k - 1)
  }

  /** A run of `k` zero digits. */
  function Zeros(k: nat): string {
    seq(k, _ => '0')
  }

  /** A digit string with its trailing zeros removed (its first digit stays). */
  function Significant(d: string): (k: string)
    requires |d| >= 1
    ensures 1 <= |k| <= |d| && k == d[..|k|]
  {
    if |d| > 1 && d[|d| - 1] == '0' then Significant(d[..|d| - 1]) else d
  }

  /** Number::toString (section 6.1.6.1.20 of ECMA-262) of an integral value as
      the language performs it: the decimal text below 10^21 in magnitude (at
      most 21 digits), and from 10^21 on exponent notation. */
  function NumberText(n: int): string {
    var d := Digits(if n < 0 then -n else n);
    if |d| <= 21 then Decimal(n)
    else if n < 0 then "-" + Scientific(d)
    else Scientific(d)
  }

  /** The exponent notation of a digit string: its significant digits with a
      point after the first, then "e+" and the exponent. */
  function Scientific(d: string): string
    requires |d| >= 1
  {
    var k := Significant(d);
    [k[0]] + (if |k| > 1 then "." + k[1..] else "") + "e+" + Decimal(|d| - 1)
  }

  /** `${p}` for a `parseInt` result as the language performs it. */
  function SpliceAsWritten(p: Parsed): string {
    match p
    case NaN => "NaN"
    case Num(v) => NumberText(v)
  }

  /** The digits of 10^k are a one and k zeros. */
  lemma {:induction false} DigitsOfPower(k: nat)
    ensures Digits(Pow10(k)) == "1" + Zeros(k)
  {
    if k > 0 {
      DigitsOfPower(k - 1);
      var p := Pow10(k - 1);
      assert Pow10(k) / 10 == p && Pow10(k) % 10 == 0;
      assert Digits(Pow10(k)) == Digits(p) + [DigitChar(0)];
      assert "1" + Zeros(k - 1) + ['0'] == "1" + Zeros(k);
    }
  }

  /** Trailing zeros after a one leave just the one. */
  lemma {:induction false} SignificantOfPower(k: nat)
    ensures Significant("1" + Zeros(k)) == "1"
  {
    if k > 0 {
      var d := "1" + Zeros(k);
      assert d[..|d| - 1] == "1" + Zeros(k - 1);
      SignificantOfPower(k - 1);
    }
  }

  /** A non-negative number of more than 21 digits is written in exponent
      notation. */
  lemma LargeText(n: nat)
    requires |Digits(n)| > 21
    ensures NumberText(n) == Scientific(Digits(n))
  {
  }

  /** A one followed by k zeros is written "1e+" and k. */
  lemma ScientificOfPower(k: nat)
    ensures Scientific("1" + Zeros(k)) == "1e+" + Decimal(k)
  {
    var d := "1" + Zeros(k);
    SignificantOfPower(k);
    assert |d| - 1 == k;
    assert [Significant(d)[0]] == "1";
  }

  /** From 10^21 on, a power of ten is written "1e+" and its exponent. */
  lemma PowerText(k: nat)
    requires k >= 21
    ensures NumberText(Pow10(k)) == "1e+" + Decimal(k)
  {
    DigitsOfPower(k);
    LargeText(Pow10(k));
    ScientificOfPower(k);
  }

  /** The decimal digit run of a digit followed by a non-digit is that digit. */
  lemma RunStops(c: char, rest: string)
    requires '0' <= c <= '9' && |rest| > 0 && !IsDigit(rest[0], 10)
    ensures ParseRun([c] + rest, 10) == Num(DigitValue(c))
  {
    var s := [c] + rest;
    assert DigitRun(s[1..], 10) == 0 by { assert s[1..][0] == rest[0]; }
    assert s[..1] == [c];
    assert Value([c], 10) == Value([c][..0], 10) * 10 + DigitValue(c);
  }

  /** `parseInt` stops at the first character that is not a decimal digit. */
  lemma StopsAtNonDigit(c: char, rest: string)
    requires '1' <= c <= '9' && |rest| > 0 && !IsDigit(rest[0], 10)
    ensures ParseInt([c] + rest) == Num(DigitValue(c))
  {
    var s := [c] + rest;
    TrimStartIdle(s);
    assert ParseSigned(s) == ParseRun(s, 10);
    RunStops(c, rest);
  }

  /** Exponent notation starts with one digit followed by a point or an "e". */
  lemma ScientificLead(d: string)
    requires |d| >= 1
    ensures |Scientific(d)| >= 2 && Scientific(d)[0] == d[0]
    ensures Scientific(d)[1] == '.' || Scientific(d)[1] == 'e'
  {
    var k := Significant(d);
    assert k[0] == d[..|k|][0] == d[0];
  }

  /** `parseInt` reads exponent notation as its first significant digit. */
  lemma ScientificParse(d: string)
    requires |d| >= 1 && '1' <= d[0] <= '9'
    ensures ParseInt(Scientific(d)) == Num(DigitValue(d[0]))
    ensures ParseInt("-" + Scientific(d)) == Num(-(DigitValue(d[0]) as int))
  {
    var s := Scientific(d);
    ScientificLead(d);
    assert s == [d[0]] + s[1..];
    RunStops(d[0], s[1..]);
    StopsAtNonDigit(d[0], s[1..]);
    LeadingMinus(s);
  }

  /** What `parseInt` reads back from the text of an integral Number: the
      number itself up to 21 digits, and beyond that, where the text is in
      exponent notation, only the leading digit with the sign. */
  lemma NumberTextParse(n: int)
    ensures var d := Digits(if n < 0 then -n else n);
            ParseInt(NumberText(n))
              == Num(if |d| <= 21 then n else if n < 0 then -(DigitValue(d[0]) as int) else DigitValue(d[0]))
  {
    var d := Digits(if n < 0 then -n else n);
    if |d| <= 21 {
      DecimalRoundTrip(n);
    } else {
      ScientificParse(d);
    }
  }

  /** Every power of ten from 10^21 on is spliced in exponent notation, which
      `parseInt` reads back as 1 (the digit-preserving `Splice` reads back as
      the number itself: SpliceRoundTrip). In the language this holds up to
      10^308; larger values are Infinity, which this integer model lacks. */
  lemma ExponentSplice(k: nat)
    requires k >= 21
    ensures ParseInt(SpliceAsWritten(Num(Pow10(k)))) == Num(1)
  {
    PowerText(k);
    ExponentParse(Decimal(k));
  }

  /** `parseInt` of a text in exponent notation with significand 1 stops at the "e". */
  lemma ExponentParse(e: string)
    ensures ParseInt("1e+" + e) == Num(1)
  {
    assert "1e+" + e == ['1'] + ("e+" + e);
    StopsAtNonDigit('1', "e+" + e);
  }

  /** Below 10^21 in magnitude (at most 21 digits) the conversion as written
      and `Splice` agree. */
  lemma SpliceAgreesBelowExponent(p: Parsed)
    requires p.Num? ==> |Digits(if p.value < 0 then -p.value else p.value)| <= 21
    ensures SpliceAsWritten(p) == Splice(p)
  {
  }
}

=== FILE: js_value.dfy ===
/** The JavaScript values the services exchange: parsed JSON bodies, and the few
    language operations the handlers apply to them (truthiness, strict equality,
    property reads, conversion to string, reading `length`). */
module JsValue {
  import opened Wrappers
  import opened JsNumber

  /** A JSON value. Object members keep their textual order; a key may repeat,
      as it may in a request body. Numbers are integral (see JsNumber). */
  datatype Json =
    | JNull
    | JBool(b: bool)
    | JNum(n: int)
    | JStr(s: string)
    | JArr(items: seq<Json>)
    | JObj(fields: seq<(string, Json)>)

  /** ToBoolean of a property read, `None` standing for `undefined`: what
      `if (!x)` tests. */
  predicate Truthy(v: Option<Json>) {
    match v
    case None => false
    case Some(j) =>
      match j
      case JNull => false
      case JBool(b) => b
      case JNum(n) => n != 0
      case JStr(s) => s != ""
      case JArr(_) => true
      case JObj(_) => true
  }

  /** `a === b` between two values read from separately parsed bodies. Primitives
      compare by value; arrays and objects compare by reference, and two
      separately parsed ones are never the same reference. */
  predicate StrictEq(a: Json, b: Json) {
    match (a, b)
    case (JNull, JNull) => true
    case (JBool(x), JBool(y)) => x == y
    case (JNum(x), JNum(y)) => x == y
    case (JStr(x), JStr(y)) => x == y
    case _ => false
  }

  /** The value JSON.parse keeps for `key`: the LAST member with that key. */
  function Lookup(fields: seq<(string, Json)>, key: string): (r: Option<Json>)
    ensures r.None? <==> forall i :: 0 <= i < |fields| ==> fields[i].0 != key
    ensures r.Some? ==> exists i :: 0 <= i < |fields| && fields[i] == (key, r.value)
                                  && forall j :: i < j < |fields| ==> fields[j].0 != key
  {
    if |fields| == 0 then None
    else if fields[|fields| - 1].0 == key then Some(fields[|fields| - 1].1)
    else Lookup(fields[..|fields| - 1], key)
  }

  /** `body.key`, as read by destructuring `const { key } = body`. */
  function Field(body: Json, key: string): Option<Json> {
    match body
    case JObj(fields) => Lookup(fields, key)
    case _ => None
  }

  /** The TypeError `String(v)` and `${v}` throw when ToPrimitive finds no
      callable conversion. */
  const PrimitiveError := "Cannot convert object to primitive value"

  /** Whether `String(v)` throws. A parsed object whose OWN `toString` member
      shadows the inherited method throws: that member is data, not a
      function, and the inherited `valueOf` hands back the object itself. An
      array throws when converting one of its elements throws. */
  predicate StringThrows(v: Json)
    decreases v
  {
    match v
    case JObj(fields) => Lookup(fields, "toString").Some?
    case JArr(items) => exists i :: 0 <= i < |items| && StringThrows(items[i])
    case _ => false
  }

  /** `String(v)`, which is also what a template literal `${v}` splices in and
      what `parseInt` reads when handed a non-string value. An array joins its
      elements with commas, a null element giving the empty string. */
  function ToJsString(v: Json): (r: Thrown<string>)
    ensures r.Threw? <==> StringThrows(v)
    ensures r.Threw? ==> r.message == PrimitiveError
    decreases v
  {
    match v
    case JNull => Returned("null")
    case JBool(b) => Returned(if b then "true" else "false")
    case JNum(n) => Returned(NumberText(n))
    case JStr(s) => Returned(s)
    case JArr(items) =>
      if exists i :: 0 <= i < |items| && ToJsString(items[i]).Threw? then Threw(PrimitiveError)
      else Returned(Join(seq(|items|, i requires 0 <= i < |items| =>
        match ToJsString(items[i]) case Returned(text) => if items[i].JNull? then "" else text case Threw(_) => "")))
    case JObj(fields) =>
      if Lookup(fields, "toString").Some? then Threw(PrimitiveError) else Returned("[object Object]")
  }

  /** The elements separated by single commas. */
  function Join(parts: seq<string>): string {
    if |parts| == 0 then ""
    else if |parts| == 1 then parts[0]
    else Join(parts[..|parts| - 1]) + "," + parts[|parts| - 1]
  }

  /** `v.length === 0`: `None` when reading `length` throws (it does on null). */
  function LengthIsZero(v: Json): (r: Option<bool>)
    ensures r.None? <==> v.JNull?
    ensures v.JArr? ==> r == Some(v.items == [])
    ensures v.JNum? || v.JBool? ==> r == Some(false)
  {
    match v
    case JNull => None
    case JArr(items) => Some(|items| == 0)
    case JStr(s) => Some(|s| == 0)
    case JObj(fields) => Some(Lookup(fields, "length") == Some(JNum(0)))
    case _ => Some(false)
  }

  /** `parseInt(v)` for a body value: `parseInt` first converts to a string,
      and throws when that conversion does. */
  function ParseJs(v: Json): (r: Thrown<Parsed>)
    ensures r.Threw? <==> StringThrows(v)
    ensures r.Threw? ==> r.message == PrimitiveError
  {
    match ToJsString(v)
    case Threw(m) => Threw(m)
    case Returned(text) => Returned(ParseInt(text))
  }

  /** `===` between values of separately parsed bodies holds only between equal
      primitives, and it is an equivalence on them. */
  lemma StrictEqMeaning(a: Json, b: Json)
    ensures StrictEq(a, b) <==> a == b && !a.JArr? && !a.JObj?
    ensures StrictEq(a, b) <==> StrictEq(b, a)
  {
  }

  /** The falsy values a JSON body can hold are exactly `null`, `false`, `0`
      and the empty string; a missing member (`undefined`) is falsy too. */
  lemma FalsyValues(v: Option<Json>)
    ensures !Truthy(v) <==> v in {None, Some(JNull), Some(JBool(false)), Some(JNum(0)), Some(JStr(""))}
  {
  }

  /** A numeric body value converts back to the same number while its text is
      plain digits (up to 21 of them). From 10^21 on the text is in exponent
      notation, and `parseInt` keeps only the leading digit, with its sign. */
  lemma ParseNumber(n: int)
    ensures var d := Digits(if n < 0 then -n else n);
            && (|d| <= 21 ==> ParseJs(JNum(n)) == Returned(Num(n)))
            && (|d| > 21 ==> ParseJs(JNum(n)) == Returned(Num(if n < 0 then -(DigitValue(d[0]) as int) else DigitValue(d[0]))))
  {
    NumberTextParse(n);
  }

  /** Every power of ten from 10^21 on parses as 1. */
  lemma ParsePower(k: nat)
    requires k >= 21
    ensures ParseJs(JNum(Pow10(k))) == Returned(Num(1))
  {
    ExponentSplice(k);
  }

  /** `null`, booleans and objects never parse as a number: their text starts
      with a letter or a bracket, unless converting an object throws. */
  lemma ParseNonNumeric(v: Json)
    requires v.JNull? || v.JBool? || v.JObj?
    ensures ParseJs(v) == if StringThrows(v) then Threw(PrimitiveError) else Returned(NaN)
  {
    if !StringThrows(v) {
      ParseNonDigit(ToJsString(v).value);
    }
  }

  /** Examples of the conversion: an object with its own `toString` member
      throws, and so does an array holding one; a plain object does not. */
  lemma ThrowingExamples()
    ensures ToJsString(JObj([("toString", JNum(1))])) == Threw(PrimitiveError)
    ensures ToJsString(JArr([JNum(7), JObj([("toString", JNull)])])) == Threw(PrimitiveError)
    ensures ToJsString(JObj([("name", JStr("x"))])) == Returned("[object Object]")
  {
    var a := JArr([JNum(7), JObj([("toString", JNull)])]);
    assert StringThrows(a.items[1]);
  }

  /** A null array element converts to the empty string. */
  lemma JoinExample()
    ensures ToJsString(JArr([JNull, JBool(true)])) == Returned(",true")
  {
    var items := [JNull, JBool(true)];
    assert !StringThrows(items[0]) && !StringThrows(items[1]);
    var texts := seq(|items|, i requires 0 <= i < |items| =>
      match ToJsString(items[i]) case Returned(text) => if items[i].JNull? then "" else text case Threw(_) => "");
    assert texts == ["", "true"];
    assert Join(["", "true"]) == ",true";
  }
}

=== FILE: scenario.dfy ===
/** How the services fit together: a token issued at login, sent through the
    gateway as a bearer header, identifies the same account to the course
    service, and ownership decided there holds against every other account. */
module Scenario {
  import opened Wrappers
  import opened JsNumber
  import opened JsValue
  import opened Credentials
  import Auth
  import Courses
  import Gateway
  import Http

  /** The token library as the services rely on it: a token the signer issued
      under the shared secret verifies to exactly the claims signed, and a
      compact token never holds a space. */
  ghost predicate Honest(verify: Verifier, sign: Signer, secret: string) {
    forall c: Claims :: ' ' !in sign(c, secret) && verify(Some(sign(c, secret)), secret) == Verified(c)
  }

  /** The access token of a successful login. */
  function TokenOf200(reply: Json): string {
    match Field(reply, "accessToken")
    case Some(JStr(t)) => t
    case _ => ""
  }

  /** A successful login found an account, and its token is the signature of
      that account's claims. */
  lemma LoginIssuesClaims(users: Auth.Store, login: Json, env: Option<string>, compare: Auth.Comparer, sign: Signer)
    requires Auth.Login(users, login, env, compare, sign).reply.status == 200
    ensures Auth.LocateName(users.users, Field(login, "name").value).Some?
    ensures var u := users.users[Auth.LocateName(users.users, Field(login, "name").value).value];
            TokenOf200(Auth.Login(users, login, env, compare, sign).reply.body) == sign(Claims(u.id, u.name), Secret(env))
  {
  }

  /** An honestly signed token sent as `Bearer <token>` verifies to its claims. */
  lemma BearerVerifies(verify: Verifier, sign: Signer, secret: string, c: Claims)
    requires Honest(verify, sign, secret)
    ensures Present(Some(BearerHeader(sign(c, secret))))
    ensures verify(TokenOf(Some(BearerHeader(sign(c, secret)))), secret) == Verified(c)
  {
    BearerHeaderToken(sign(c, secret));
  }

  /** After a successful login the client sends `Bearer <token>` to POST
      /courses through the gateway. The gateway verifies it and forwards the
      header and body unchanged; the course service sees the same claims and
      records the new course as created by the account that logged in. The
      reply is 201, whose `course.createdBy` is that account's id, unless
      logging the name throws, in which case it is 500 with the course stored
      all the same. */
  lemma LoginThenCreateCourse(users: Auth.Store, login: Json, env: Option<string>, compare: Auth.Comparer,
                              sign: Signer, verify: Verifier, backend: Gateway.Backend,
                              courses: Courses.Store, course: Json)
    requires Auth.Login(users, login, env, compare, sign).reply.status == 200
    requires Honest(verify, sign, Secret(env))
    requires Truthy(Field(course, "name"))
    ensures Auth.LocateName(users.users, Field(login, "name").value).Some?
    ensures var k := Auth.LocateName(users.users, Field(login, "name").value).value;
            var header := Some(BearerHeader(TokenOf200(Auth.Login(users, login, env, compare, sign).reply.body)));
            var exchange := Gateway.Handle(Gateway.Request(Gateway.CreateCourse, header, course), env, verify, backend);
            && exchange.call.Some?
            && exchange.call.value.authorization == header
            && exchange.call.value.body == Some(course)
            && var served := Courses.Serve(courses, Courses.Request(header, Courses.CreateCourse(course)), env, verify);
               && served.reply.status == (if StringThrows(Field(course, "name").value) then 500 else 201)
               && served.store.courses[|courses.courses|].createdBy == users.users[k].id
               && (served.reply.status == 201 ==>
                     && Field(served.reply.body, "course").Some?
                     && Field(Field(served.reply.body, "course").value, "createdBy") == Some(JNum(users.users[k].id)))
  {
    LoginIssuesClaims(users, login, env, compare, sign);
    var u := users.users[Auth.LocateName(users.users, Field(login, "name").value).value];
    var claims := Claims(u.id, u.name);
    GatewayForwardsToken(verify, sign, env, claims, course, backend);
    CourseServiceRecordsOwner(verify, sign, env, claims, courses, course);
  }

  /** The gateway passes an honestly signed bearer header and the body of
      POST /courses on to the course service unchanged. */
  lemma GatewayForwardsToken(verify: Verifier, sign: Signer, env: Option<string>, claims: Claims,
                             course: Json, backend: Gateway.Backend)
    requires Honest(verify, sign, Secret(env))
    ensures var header := Some(BearerHeader(sign(claims, Secret(env))));
            var exchange := Gateway.Handle(Gateway.Request(Gateway.CreateCourse, header, course), env, verify, backend);
            exchange.call.Some? && exchange.call.value.authorization == header && exchange.call.value.body == Some(course)
  {
    BearerVerifies(verify, sign, Secret(env), claims);
    var req := Gateway.Request(Gateway.CreateCourse, Some(BearerHeader(sign(claims, Secret(env)))), course);
    Gateway.ForwardsHeaderVerbatim(req, env, verify, backend);
    Gateway.ForwardsBodyVerbatim(req, env, verify, backend);
  }

  /** The course service admits an honestly signed bearer header as the
      signed claims and records them as the new course's creator, whether the
      reply is 201 or the 500 of a name whose conversion throws; a 201 echoes
      that creator in its `course`. */
  lemma CourseServiceRecordsOwner(verify: Verifier, sign: Signer, env: Option<string>, claims: Claims,
                                  courses: Courses.Store, course: Json)
    requires Honest(verify, sign, Secret(env))
    requires Truthy(Field(course, "name"))
    ensures var header := Some(BearerHeader(sign(claims, Secret(env))));
            var served := Courses.Serve(courses, Courses.Request(header, Courses.CreateCourse(course)), env, verify);
            && served.reply.status == (if StringThrows(Field(course, "name").value) then 500 else 201)
            && served.store.courses[|courses.courses|].createdBy == claims.userId
            && (served.reply.status == 201 ==>
                  && Field(served.reply.body, "course").Some?
                  && Field(Field(served.reply.body, "course").value, "createdBy") == Some(JNum(claims.userId)))
  {
    BearerVerifies(verify, sign, Secret(env), claims);
    var header := Some(BearerHeader(sign(claims, Secret(env))));
    var served := Courses.Serve(courses, Courses.Request(header, Courses.CreateCourse(course)), env, verify);
    var c := served.store.courses[|courses.courses|];
    Courses.CourseJsonFields(c);
    var fields := [("message", JStr("Course created successfully")), ("course", Courses.CourseJson(c))];
    assert fields[..1] == [fields[0]];
  }

  /** A course created by one account cannot be deleted by another: the owner
      check finds no course with that id owned by the other caller, so the
      reply is 404 and the store is unchanged. The id travels in the path as
      its decimal text. */
  lemma OtherUserCannotDelete(s: Courses.Store, owner: Claims, other: Claims, body: Json)
    requires Courses.Valid(s)
    requires Truthy(Field(body, "name"))
    requires owner.userId != other.userId
    ensures var created := Courses.Create(s, owner, body).store;
            Courses.Remove(created, other, Splice(Num(s.nextId)))
              == Courses.Step(Http.ErrorReply(404, "Course not found or not owned by this user"), created)
  {
    var created := Courses.Create(s, owner, body).store;
    Courses.CreateKeepsValid(s, owner, body);
    SpliceRoundTrip(Num(s.nextId));
  }

  /** The owner, by contrast, can delete it, and the course is gone. */
  lemma OwnerDeletes(s: Courses.Store, owner: Claims, body: Json)
    requires Courses.Valid(s)
    requires Truthy(Field(body, "name"))
    ensures var created := Courses.Create(s, owner, body).store;
            var r := Courses.Remove(created, owner, Splice(Num(s.nextId)));
            && r.reply.status == 200
            && r.store.courses == s.courses
  {
    var created := Courses.Create(s, owner, body).store;
    SpliceRoundTrip(Num(s.nextId));
    var n := |s.courses|;
    var found := Courses.LocateOwned(created.courses, Num(s.nextId), owner.userId);
    assert Courses.HasId(created.courses[n], Num(s.nextId)) && created.courses[n].createdBy == owner.userId;
    assert found.Some?;
    assert created.courses[..n] == s.courses;
  }

  /** The segment the gateway's DELETE /courses/:id handler splices, as the
      language performs it, for an id of 10^21 or a larger power of ten (up to
      10^308, where doubles end) makes the course service act on course 1:
      it receives "1e+21" and reads it as 1. The model's own gateway sends
      the digit-preserving segment instead. */
  lemma ExponentIdDeletesCourseOne(s: Courses.Store, caller: Claims, k: nat)
    requires k >= 21
    ensures Courses.Remove(s, caller, Gateway.IdSegmentAsWritten("1" + Zeros(k)))
              == Courses.Remove(s, caller, "1")
  {
    Gateway.ExponentIdExample(k);
    TrimStartIdle("1");
    RunOfDigits("1");
    assert ParseInt("1") == Num(1);
  }
}

=== FILE: students.dfy ===
/** The student service: an in-memory list of student profiles and an id
    counter. Every profile belongs to the user who created it; listing,
    deleting and updating are scoped to the caller. */
module Students {
  import opened Wrappers
  import opened JsNumber
  import opened JsValue
  import opened JsArray
  import opened Credentials
  import opened Http

  /** A stored profile (its `createdAt`/`updatedAt` time stamps are not modelled). */
  datatype Student = Student(id: int, name: Json, userId: int)

  /** `students` and `id`, the next id to hand out. */
  datatype Store = Store(students: seq<Student>, nextId: int)

  datatype Step = Step(reply: Reply, store: Store)

  /** The store at start-up. */
  const Initial := Store([], 1)

  /** Ids are positive, below the counter and strictly increasing in list order. */
  predicate Valid(s: Store) {
    && 1 <= s.nextId
    && (forall i :: 0 <= i < |s.students| ==> 1 <= s.students[i].id < s.nextId)
    && (forall i, j :: 0 <= i < j < |s.students| ==> s.students[i].id < s.students[j].id)
  }

  function StudentJson(st: Student): Json {
    JObj([("id", JNum(st.id)), ("name", st.name), ("userId", JNum(st.userId))])
  }

  /** `s.id === studentId && s.userId === req.user.userId`. */
  predicate OwnedMatch(st: Student, id: Parsed, owner: int) {
    id.Num? && st.id == id.value && st.userId == owner
  }

  /** The position `find`/`findIndex` report for an owned match. */
  function LocateOwned(students: seq<Student>, id: Parsed, owner: int): Option<nat> {
    FindIndex(students, (st: Student) => OwnedMatch(st, id, owner))
  }

  /** `students.filter(s => s.userId === owner)`. */
  function OwnedBy(students: seq<Student>, owner: int): seq<Student> {
    Filter(students, (st: Student) => st.userId == owner)
  }

  /** The store with the name of the student at `k` replaced, everything else kept. */
  predicate Renamed(before: Store, after: Store, k: nat, name: Json)
    requires k < |before.students|
  {
    && after.nextId == before.nextId
    && |after.students| == |before.students|
    && (forall i :: 0 <= i < |before.students| && i != k ==> after.students[i] == before.students[i])
    && after.students[k].id == before.students[k].id
    && after.students[k].userId == before.students[k].userId
    && after.students[k].name == name
  }

  // ---------------------------------------------------------------- handlers

  /** POST /students. The profile is stored before the handler logs its name
      with a template literal; when that conversion throws, the catch block
      answers 500 although the profile stays stored. */
  function Create(s: Store, caller: Claims, body: Json): (r: Step)
    ensures !Truthy(Field(body, "name")) ==> r == Step(ErrorReply(400, "Student name is required"), s)
    ensures Truthy(Field(body, "name")) ==>
      && r.reply.status == (if StringThrows(Field(body, "name").value) then 500 else 201)
      && (StringThrows(Field(body, "name").value) ==> r.reply == InternalError(PrimitiveError))
      && r.store.nextId == s.nextId + 1
      && |r.store.students| == |s.students| + 1
      && r.store.students[..|s.students|] == s.students
      && r.store.students[|s.students|].id == s.nextId
      && r.store.students[|s.students|].name == Field(body, "name").value
      && r.store.students[|s.students|].userId == caller.userId
    ensures Truthy(Field(body, "name")) && !StringThrows(Field(body, "name").value) ==>
      r.reply.body == JObj([("message", JStr("Student profile successfully created.")),
                            ("student", StudentJson(r.store.students[|s.students|]))])
  {
    var name := Field(body, "name");
    if !Truthy(name) then Step(ErrorReply(400, "Student name is required"), s)
    else
      var st := Student(s.nextId, name.value, caller.userId);
      var stored := Store(s.students + [st], s.nextId + 1);
      match ToJsString(name.value)
      case Threw(m) => Step(InternalError(m), stored)
      case Returned(_) =>
        Step(Reply(201, JObj([("message", JStr("Student profile successfully created.")),
                              ("student", StudentJson(st))])), stored)
  }

  /** GET /students: the caller's own profiles, in the order they were created. */
  function List(s: Store, caller: Claims): (r: Step)
    ensures r.store == s && r.reply.status == 200 && r.reply.body.JArr?
    ensures var mine := OwnedBy(s.students, caller.userId);
            |r.reply.body.items| == |mine|
            && forall i :: 0 <= i < |mine| ==> r.reply.body.items[i] == StudentJson(mine[i])
  {
    var mine := OwnedBy(s.students, caller.userId);
    Step(Reply(200, JArr(seq(|mine|, i requires 0 <= i < |mine| => StudentJson(mine[i])))), s)
  }

  /** DELETE /students/:id: only the owner may delete. */
  function Remove(s: Store, caller: Claims, idParam: string): (r: Step)
    ensures r.store.nextId == s.nextId
    ensures LocateOwned(s.students, ParseInt(idParam), caller.userId).None? ==>
      r == Step(ErrorReply(404, "Student not found or not owned by this user"), s)
    ensures LocateOwned(s.students, ParseInt(idParam), caller.userId).Some? ==>
      var k := LocateOwned(s.students, ParseInt(idParam), caller.userId).value;
      && r.reply == MessageReply(200, "Student with id " + Splice(ParseInt(idParam)) + " deleted successfully.")
      && r.store.students == RemoveAt(s.students, k)
  {
    var id := ParseInt(idParam);
    match LocateOwned(s.students, id, caller.userId)
    case None => Step(ErrorReply(404, "Student not found or not owned by this user"), s)
    case Some(k) =>
      Step(MessageReply(200, "Student with id " + Splice(id) + " deleted successfully."),
           s.(students := RemoveAt(s.students, k)))
  }

  /** PUT /students/:id: a full replacement of the name. The name is checked
      before the student is looked up. */
  function Replace(s: Store, caller: Claims, idParam: string, body: Json): (r: Step)
    ensures !Truthy(Field(body, "name")) ==> r == Step(ErrorReply(400, "Student name is required"), s)
    ensures Truthy(Field(body, "name")) && LocateOwned(s.students, ParseInt(idParam), caller.userId).None? ==>
      r == Step(ErrorReply(404, "Student not found or not owned by this user"), s)
    ensures Truthy(Field(body, "name")) && LocateOwned(s.students, ParseInt(idParam), caller.userId).Some? ==>
      var k := LocateOwned(s.students, ParseInt(idParam), caller.userId).value;
      && r.reply.status == 200
      && Renamed(s, r.store, k, Field(body, "name").value)
      && r.reply.body == JObj([("message", JStr("Student updated successfully")),
                               ("student", StudentJson(r.store.students[k]))])
  {
    var name := Field(body, "name");
    if !Truthy(name) then Step(ErrorReply(400, "Student name is required"), s)
    else
      match LocateOwned(s.students, ParseInt(idParam), caller.userId)
      case None => Step(ErrorReply(404, "Student not found or not owned by this user"), s)
      case Some(k) =>
        var updated := s.students[k].(name := name.value);
        var reply := Reply(200, JObj([("message", JStr("Student updated successfully")),
                                      ("student", StudentJson(updated))]));
        Step(reply, s.(students := s.students[k := updated]))
  }

  /** PATCH /students/:id: the name changes only when the body supplies one
      (any value, even a falsy one). */
  function Patch(s: Store, caller: Claims, idParam: string, body: Json): (r: Step)
    ensures LocateOwned(s.students, ParseInt(idParam), caller.userId).None? ==>
      r == Step(ErrorReply(404, "Student not found or not owned by this user"), s)
    ensures LocateOwned(s.students, ParseInt(idParam), caller.userId).Some? ==>
      var k := LocateOwned(s.students, ParseInt(idParam), caller.userId).value;
      && r.reply.status == 200
      && Renamed(s, r.store, k, match Field(body, "name") case Some(n) => n case None => s.students[k].name)
      && r.reply.body == JObj([("message", JStr("Student partially updated successfully")),
                               ("student", StudentJson(r.store.students[k]))])
  {
    match LocateOwned(s.students, ParseInt(idParam), caller.userId)
    case None => Step(ErrorReply(404, "Student not found or not owned by this user"), s)
    case Some(k) =>
      var updated :=
        match Field(body, "name")
        case Some(name) => s.students[k].(name := name)
        case None => s.students[k];
      var reply := Reply(200, JObj([("message", JStr("Student partially updated successfully")),
                                    ("student", StudentJson(updated))]));
      Step(reply, s.(students := s.students[k := updated]))
  }

  // ---------------------------------------------------------- authentication

  datatype Endpoint =
    | CreateStudent(body: Json)
    | ListStudents
    | DeleteStudent(id: string)
    | ReplaceStudent(id: string, body: Json)
    | PatchStudent(id: string, body: Json)

  datatype Request = Request(authorization: Option<string>, endpoint: Endpoint)

  datatype Result = Admitted(caller: Claims) | Denied(reply: Reply)

  /** The service's `authenticate` middleware: 401 without a header, 403 when
      the token does not verify. */
  function Authenticate(authorization: Option<string>, env: Option<string>, verify: Verifier): (r: Result)
    ensures r.Admitted? <==> Present(authorization) && verify(TokenOf(authorization), Secret(env)).Verified?
    ensures r.Admitted? ==> r.caller == verify(TokenOf(authorization), Secret(env)).claims
    ensures r.Denied? ==> r.reply.status == (if Present(authorization) then 403 else 401)
  {
    if !Present(authorization) then Denied(ErrorReply(401, "No token provided"))
    else
      match verify(TokenOf(authorization), Secret(env))
      case Rejected(_) => Denied(ErrorReply(403, "Invalid Token"))
      case Verified(claims) => Admitted(claims)
  }

  /** The handler an admitted request reaches. */
  function Dispatch(s: Store, caller: Claims, e: Endpoint): Step {
    match e
    case CreateStudent(body) => Create(s, caller, body)
    case ListStudents => List(s, caller)
    case DeleteStudent(id) => Remove(s, caller, id)
    case ReplaceStudent(id, body) => Replace(s, caller, id, body)
    case PatchStudent(id, body) => Patch(s, caller, id, body)
  }

  /** One request to the student service. */
  function Serve(s: Store, req: Request, env: Option<string>, verify: Verifier): (r: Step)
    ensures !Present(req.authorization) ==> r == Step(ErrorReply(401, "No token provided"), s)
    ensures Present(req.authorization) && verify(TokenOf(req.authorization), Secret(env)).Rejected? ==>
      r == Step(ErrorReply(403, "Invalid Token"), s)
    ensures Present(req.authorization) && verify(TokenOf(req.authorization), Secret(env)).Verified? ==>
      r == Dispatch(s, verify(TokenOf(req.authorization), Secret(env)).claims, req.endpoint)
    ensures r.store.nextId >= s.nextId
  {
    match Authenticate(req.authorization, env, verify)
    case Denied(reply) => Step(reply, s)
    case Admitted(caller) => Dispatch(s, caller, req.endpoint)
  }

  // ----------------------------------------------------------------- lemmas

  /** A rename keeps ids and owners, hence validity. */
  lemma RenamedKeepsValid(before: Store, after: Store, k: nat, name: Json)
    requires Valid(before) && k < |before.students| && Renamed(before, after, k, name)
    ensures Valid(after)
    ensures forall i :: 0 <= i < |after.students| ==>
      after.students[i].id == before.students[i].id && after.students[i].userId == before.students[i].userId
  {
  }

  /** Create appends an id above every other and advances the counter past it. */
  lemma CreateKeepsValid(s: Store, caller: Claims, body: Json)
    requires Valid(s)
    ensures Valid(Create(s, caller, body).store)
  {
    var r := Create(s, caller, body);
    if Truthy(Field(body, "name")) {
      assert r.store.students == s.students + [r.store.students[|s.students|]];
    }
  }

  /** Delete drops one profile and keeps the rest in order. */
  lemma RemoveKeepsValid(s: Store, caller: Claims, idParam: string)
    requires Valid(s)
    ensures Valid(Remove(s, caller, idParam).store)
  {
  }

  /** PUT keeps ids and owners. */
  lemma ReplaceKeepsValid(s: Store, caller: Claims, idParam: string, body: Json)
    requires Valid(s)
    ensures Valid(Replace(s, caller, idParam, body).store)
  {
    var found := LocateOwned(s.students, ParseInt(idParam), caller.userId);
    if found.Some? && Truthy(Field(body, "name")) {
      RenamedKeepsValid(s, Replace(s, caller, idParam, body).store, found.value, Field(body, "name").value);
    }
  }

  /** PATCH keeps ids and owners. */
  lemma PatchKeepsValid(s: Store, caller: Claims, idParam: string, body: Json)
    requires Valid(s)
    ensures Valid(Patch(s, caller, idParam, body).store)
  {
    var found := LocateOwned(s.students, ParseInt(idParam), caller.userId);
    if found.Some? {
      var after := Patch(s, caller, idParam, body).store;
      RenamedKeepsValid(s, after, found.value, after.students[found.value].name);
    }
  }

  /** Every handler keeps the store valid. */
  lemma DispatchKeepsValid(s: Store, caller: Claims, e: Endpoint)
    requires Valid(s)
    ensures Valid(Dispatch(s, caller, e).store)
  {
    match e
    case CreateStudent(body) => CreateKeepsValid(s, caller, body);
    case ListStudents =>
    case DeleteStudent(id) => RemoveKeepsValid(s, caller, id);
    case ReplaceStudent(id, body) => ReplaceKeepsValid(s, caller, id, body);
    case PatchStudent(id, body) => PatchKeepsValid(s, caller, id, body);
  }

  /** Every request keeps the store valid. */
  lemma ServeKeepsValid(s: Store, req: Request, env: Option<string>, verify: Verifier)
    requires Valid(s)
    ensures Valid(Serve(s, req, env, verify).store)
  {
    match Authenticate(req.authorization, env, verify)
    case Denied(_) =>
    case Admitted(caller) => DispatchKeepsValid(s, caller, req.endpoint);
  }

  /** In a valid store, a successful delete removes the single profile with
      that id, which the caller owns; every other profile stays, in order. */
  lemma RemoveExactlyOne(s: Store, caller: Claims, idParam: string)
    requires Valid(s)
    requires Remove(s, caller, idParam).reply.status == 200
    ensures var after := Remove(s, caller, idParam).store.students;
            var n := ParseInt(idParam);
            && n.Num?
            && |after| == |s.students| - 1
            && (exists k :: 0 <= k < |s.students| && s.students[k].id == n.value
                            && s.students[k].userId == caller.userId
                            && after == s.students[..k] + s.students[k + 1..])
            && (forall i :: 0 <= i < |after| ==> after[i].id != n.value)
  {
    var n := ParseInt(idParam);
    var k := LocateOwned(s.students, n, caller.userId).value;
    var after := Remove(s, caller, idParam).store.students;
    assert after == s.students[..k] + s.students[k + 1..];
    forall i | 0 <= i < |after|
      ensures after[i].id != n.value
    {
      if i < k {
        assert after[i] == s.students[i];
      } else {
        assert after[i] == s.students[i + 1];
      }
    }
  }

  /** A caller who owns no profile with the given id gets 404 from delete, PUT
      (with a name) and PATCH, and the store is left as it was. */
  lemma NotOwnedIsNotFound(s: Store, caller: Claims, idParam: string, body: Json)
    requires forall i :: 0 <= i < |s.students| ==> !OwnedMatch(s.students[i], ParseInt(idParam), caller.userId)
    ensures Remove(s, caller, idParam) == Step(ErrorReply(404, "Student not found or not owned by this user"), s)
    ensures Patch(s, caller, idParam, body) == Step(ErrorReply(404, "Student not found or not owned by this user"), s)
    ensures Truthy(Field(body, "name")) ==>
      Replace(s, caller, idParam, body) == Step(ErrorReply(404, "Student not found or not owned by this user"), s)
  {
    assert LocateOwned(s.students, ParseInt(idParam), caller.userId).None?;
  }

  /** Creating a profile adds it to the end of its owner's list and leaves
      every other user's list as it was. */
  lemma ListAfterCreate(s: Store, caller: Claims, body: Json, viewer: int)
    requires Truthy(Field(body, "name"))
    ensures var after := Create(s, caller, body).store;
            var st := after.students[|s.students|];
            OwnedBy(after.students, viewer)
              == OwnedBy(s.students, viewer) + (if viewer == caller.userId then [st] else [])
  {
    var after := Create(s, caller, body).store;
    var st := after.students[|s.students|];
    assert after.students == s.students + [st];
    FilterAppend(s.students, [st], (x: Student) => x.userId == viewer);
    assert [st][..0] == [];
  }
}

=== FILE: wrappers.dfy ===
/** Small failure-carrying datatypes shared by every service model. */
module Wrappers {

  /** `Some(v)` for a value that is present, `None` for JavaScript's `undefined`. */
  datatype Option<+T> = None | Some(value: T)

  /** The outcome of a call into a library that may throw: it either returns a
      value or throws an error whose `message` the caller can read. */
  datatype Thrown<+T> = Returned(value: T) | Threw(message: string)
}
